=== FILE: README.md ===
# goniometry — a Dafny model of angle construction and normalisation

This project models the core of the PHP library `MarcoConsiglio/goniometry`.

- An **angle** is a sexagesimal value: degrees, minutes, seconds and a direction.
  The direction is `COUNTER_CLOCKWISE` (+1, positive) or `CLOCKWISE` (−1, negative).
- Angles are produced by **builders**:
  - `FromDegrees` validates separate values;
  - `FromDecimal` splits a decimal degree value;
  - `FromRadian` converts and delegates to `FromDecimal`;
  - `FromString` reads the `"{sign}{d}° {m}' {s}\""` text form with three regular expressions;
  - `FromAngles` adds two angles in seconds space and normalises the result with three carry loops;
  - the relative and absolute sum builders add two angles in decimal-degree space.
- The angle itself offers:
  - the signed `getDegrees` view;
  - the direction predicates and `toggleDirection`;
  - `toDecimal` and `toTotalSeconds`;
  - the text form;
  - the comparison family (`isGreaterThan`, `isLessThan`, `isEqual` and the two `OrEqual` variants).
  A comparison takes an int, a float, a numeric or angle string, or another angle.

## Modelling choices

- **Numbers.**
  - PHP floats are exact `real`s.
  - `PHP_FLOAT_DIG` is 15.
  - `M_PI` is PHP's literal `3.14159265358979323846`.
- **Rounding.** PHP's `round` exists in two modes, each defined through `.Floor` on the value scaled by `10^p`:
  - `Rounding.RoundHalfAway` is PHP's default mode, used at `src/Builders/AngleBuilder.php:85` and `src/Builders/FromAngles.php:168`;
  - `Rounding.RoundHalfTowardsZero` is `RoundingMode::HalfTowardsZero`, used everywhere else.
- **Operations and results.**
  - Every operation is a pure function returning a new value. Where PHP mutates `$this`, as `toggleDirection` does, the model returns the changed copy.
  - Errors are `Result` values carrying which exception is thrown: `Overflow`, `NoMatch` or `InvalidArgument`.
  - A builder's constructor is modelled as `New`, which either fails or yields the builder state. `fetchData` is modelled as `FetchData`, and the `createFrom*` pair as `Create*`.
- **Undefined helpers become parameters.**
  - `Angle::countDecimalPlaces` is called but defined in no file of the repository, so it is the parameter `places: real -> nat`.
  - The sum builders' inherited helpers are not defined either: the both-full and both-null tests, the maximum suggested precision, and the degree/minute/second derivation. They are the function-valued fields of `SumBuilders.Collaborators`.
- **Regular expressions and `is_numeric`.**
  - The three regular expressions are recognised by hand in module `Tokens`. Each recogniser is proved to return the leftmost match, and the only one.
  - PHP 8's `is_numeric` for strings is the recogniser `Numeric.Parse`.
  - Strings are sequences of characters, so '°' is one character. PHP's patterns carry no `/u` flag and match bytes, where '°' is the two UTF-8 bytes C2 B0. The two readings accept the same strings: bytes of 0x80 and above are neither digits nor word characters, so they affect neither `\d` nor `\b`.
- **Constants in arithmetic.** `MAX_MINUTES`, `MAX_SECONDS` and their products 3600 and 1296000 appear in arithmetic as literals. The verifier then sees linear arithmetic, and the values are the same.

Where the library's own documentation and its code differ, the model follows the code:
- `createFromValues` does not take absolute values of its inputs.
- `createFromString` takes the sign from the integer value of the degrees token, not from a leading `-`.
- An int operand of a comparison is not compared at precision 0.
- An out-of-range string raises `NoMatchException`, not an overflow.

## Model

| member | source | states |
|---|---|---|
| Rounding.RoundHalfAway | src/Builders/AngleBuilder.php:85 | the result lies on the 10^-p grid within half a unit of the input, a tie goes away from zero, and the sign is kept |
| Rounding.RoundHalfTowardsZero | src/Angle.php:242-245 | the result lies on the 10^-p grid within half a unit of the input, a tie goes towards zero, and the sign is kept |
| Rounding.RoundSpec | src/Angle.php:242-245 | for either mode: on the grid, within half a unit of the input, the tie direction, and the sign of the input kept |
| Rounding.RoundOnGrid | src/Builders/AngleBuilder.php:85 | rounding a value already on the grid returns it unchanged |
| Rounding.RoundIdempotent | src/Builders/AngleBuilder.php:85 | rounding twice at the same precision is rounding once |
| Rounding.RoundOdd | src/Angle.php:242-245 | both modes are odd functions: rounding −x gives minus the rounding of x |
| Rounding.RoundTowardsZeroNegative | src/Angle.php:242-245 | half-towards-zero rounding is negative exactly when the input is below minus half a unit |
| Rounding.GridWidens | src/Builders/FromDecimal.php:180-185 | a value on the grid of p decimals is also on the grid of every q ≥ p |
| Angles.GetDegrees | src/Angle.php:186-201 | both array forms fold the direction into degrees only: the first entry is degrees · direction (−degrees clockwise, degrees counter-clockwise); minutes and seconds are unchanged |
| Angles.GetDegreesFormsAgree | src/Angle.php:186-201 | the keyed and the positional array carry the same three values |
| Angles.ToggleDirection | src/Angle.php:228-232 | degrees, minutes and seconds are kept; clockwise becomes counter-clockwise and back |
| Angles.ToggleInvolution | src/Angle.php:228-232 | toggling twice gives back the original angle |
| Angles.IsClockwise | src/Angle.php:208-211 | true exactly when the direction is CLOCKWISE, −1 |
| Angles.IsCounterClockwise | src/Angle.php:218-221 | true exactly when the direction is COUNTER_CLOCKWISE, 1 |
| Angles.DirectionPredicatesExclusive | src/Angle.php:208-221 | an angle with a valid direction is exactly one of clockwise and counter-clockwise |
| Angles.ToDecimal | src/Angle.php:240-249 | the result is on the grid of the requested precision, within half a unit of direction · (d + m/60 + s/3600), a tie goes towards zero, and it is negative only for a clockwise angle |
| Angles.DirectionPreservesRounding | src/Angle.php:242-247 | multiplying the rounded magnitude by a direction keeps the half-unit error and the grid |
| Angles.ToggleNegatesDecimal | src/Angle.php:228-249 | the decimal value of the toggled angle is minus the decimal value of the angle |
| Angles.ToggleNegatesFirstEntry | src/Angle.php:186-232 | toggling negates the first `getDegrees` entry and keeps the other two |
| Angles.ToTotalSeconds | src/Angle.php:481-488 | the total is on the grid of the precision, within half a unit of 3600 · the angle's magnitude, and a tie goes towards zero |
| Angles.TotalSecondsExact | src/Angle.php:481-488 | when s + 60·m + 3600·d is already on the grid, toTotalSeconds returns it exactly |
| Builder.BaseFetch | src/Builders/AngleBuilder.php:80-88 | degrees, minutes and direction pass through unchanged; seconds are rounded to one decimal, stay within 0.05 of the input, and a tie goes away from zero |
| Builder.BaseFetchIdempotent | src/Builders/AngleBuilder.php:80-88 | fetching already fetched values changes nothing |
| Builder.AngleOf | src/Angle.php:110-113 | the angle takes the first four fetched slots in order |
| Builder.AngleOfRoundTrip | src/Angle.php:110-113 | an angle's own four values give back that angle |
| FromDegrees.ValuesExceedMaximumAllowed | src/Builders/FromDegrees.php:120-126 | true exactly when degrees > 360, minutes > 59 or seconds > 59.9 |
| FromDegrees.MaxSecondsValue | src/Builders/FromDegrees.php:124 | the seconds bound round(60 − 0.1, 1) is exactly 59.9 |
| FromDegrees.IsNullAngle | src/Builders/FromDegrees.php:147-150 | true exactly when degrees, minutes and seconds are all zero, the seconds as given and not as they will be rounded |
| FromDegrees.CorrectDirection | src/Builders/FromDegrees.php:134-137 | the corrected direction is valid, and clockwise exactly when the requested direction is negative |
| FromDegrees.New | src/Builders/FromDegrees.php:22-65 | overflow exactly on the upper bounds and nothing else; values kept; clockwise exactly when the direction is negative and the angle is not null |
| FromDegrees.FetchData | src/Builders/FromDegrees.php:73-110 | the calc steps change nothing: fields kept, seconds rounded to one decimal half away from zero |
| FromDegrees.CreateFromValues | src/Angle.php:137-140 | overflow exactly on the upper bounds; degrees and minutes kept; seconds rounded to one decimal with ties away from zero; direction as corrected |
| FromDegrees.BoundaryInputs | src/Builders/FromDegrees.php:120-126 | 360°, 59′ and 59.9″ are accepted; 361°, 60′, 60″ and 59.95″ raise overflow |
| FromDegrees.NegativeInputsPass | src/Builders/FromDegrees.php:122-124 | negative degrees, minutes and seconds pass validation unchanged |
| FromDegrees.NullAngleCounterClockwise | src/Builders/FromDegrees.php:56-65 | 0°0′0″ is counter-clockwise whatever direction is requested |
| FromDegrees.GetDegreesOfCreated | src/Builders/FromDegrees.php:73-110 | for whole seconds, getDegrees of the created angle is (degrees · direction, minutes, seconds) |
| FromDegrees.NullCheckBeforeRounding | src/Builders/FromDegrees.php:56-65 | as written: (0, 0, 0.04, clockwise) gives a clockwise 0°0′0.0″ |
| FromDegrees.NewCorrected | src/Builders/FromDegrees.php:56-65 | the constructor with the null check applied to the seconds as they will be stored |
| FromDegrees.NullAnglesAreCounterClockwise | src/Builders/FromDegrees.php:62-64 | with the correction, every fetched null angle is counter-clockwise |
| FromDegrees.CorrectionAgrees | src/Builders/FromDegrees.php:56-65 | for seconds with at most one decimal, the corrected constructor and the original agree |
| FromDecimal.DecimalPrecision | src/Builders/FromDecimal.php:166-170 | the precision is the input's decimal places, capped at PHP_FLOAT_DIG |
| FromDecimal.SecondsPrecision | src/Builders/FromDecimal.php:180-185 | the seconds precision is the decimal precision + 6, capped at PHP_FLOAT_DIG |
| FromDecimal.New | src/Builders/FromDecimal.php:47-75 | overflow exactly when \|x\| > 360; otherwise x is kept and the precision is at most 15 |
| FromDecimal.Decompose | src/Builders/FromDecimal.php:82-97 | degrees = trunc \|x\|, minutes in 0..59, remainder in [0, 1/60), and degrees + minutes/60 + remainder = \|x\| |
| FromDecimal.FetchData | src/Builders/FromDecimal.php:104-157 | seconds in [0, 60], on the seconds grid, within half a unit of 3600 · remainder with a tie rounded down; clockwise exactly when x < 0; x and its precision in the provenance slots, radian slots empty |
| FromDecimal.SecondsAtMostSixty | src/Builders/FromDecimal.php:104-111 | rounding a remainder below 60″ never exceeds 60 |
| FromDecimal.CreateFromDecimal | src/Angle.php:162-165 | overflow exactly when \|x\| > 360; degrees in 0..360, minutes in 0..59, seconds in [0, 60]; clockwise exactly when x < 0 |
| FromDecimal.ToDecimalRecovers | src/Builders/FromDecimal.php:82-123 | for an input with at most 15 decimals, the angle's magnitude is \|x\| and toDecimal(p) is x rounded at p |
| FromDecimal.MagnitudeOfParts | src/Builders/FromDecimal.php:82-108 | unrounded parts add back to the input |
| FromDecimal.SignedMagnitude | src/Angle.php:240-249 | an angle whose magnitude is \|x\| and whose direction is x's sign has toDecimal equal to x rounded |
| FromDecimal.ExactSecondsOnGrid | src/Builders/FromDecimal.php:104-111 | for an input on the p-decimal grid, 3600 · remainder is also on that grid |
| FromDecimal.OverflowBoundary | src/Builders/FromDecimal.php:70-75 | ±360 is accepted; ±360.00001 raises overflow |
| FromDecimal.ZeroDecimal | src/Builders/FromDecimal.php:118-123 | the angle from 0 is counter-clockwise and its toDecimal is 0 |
| FromDecimal.WholeDecimal | src/Builders/FromDecimal.php:82-123 | a whole number n ≤ 360 gives n°0′0″ counter-clockwise |
| FromRadian.New | src/Builders/FromRadian.php:24-96 | overflow exactly when \|r\| > 2π; otherwise r is kept |
| FromRadian.Rad2Deg | src/Builders/FromRadian.php:105 | degrees · π = r · 180; the sign is kept; \|r\| ≤ 2π exactly when the degrees are within ±360 |
| FromRadian.FetchData | src/Builders/FromRadian.php:103-106 | an accepted radian never overflows the inner decimal builder; clockwise exactly when r < 0 |
| FromRadian.CreateFromRadian | src/Angle.php:174-177 | overflow exactly when \|r\| > 2π; clockwise exactly when r < 0; degrees and minutes in range |
| FromRadian.RadianIsDecimal | src/Builders/FromRadian.php:103-106 | the angle from r equals the angle from the decimal r · 180/π |
| FromRadian.FullTurn | src/Builders/FromRadian.php:91-96 | r = 2π is accepted and gives 360°0′0″ counter-clockwise |
| Tokens.MatchDegrees | src/Angle.php:33 | returns a match of the degrees expression anchored at the start, and the only one; none when there is none |
| Tokens.DegreeDigitsAlternatives | src/Angle.php:33 | a digit group is one of 360, 300–359, [12]?d{1,2} exactly when it is 1 or 2 digits, or 3 digits without a leading zero, worth at most 360 |
| Tokens.MinutesAt | src/Angle.php:38 | the attempt at one position returns a match there, or there is none |
| Tokens.FindMinutes | src/Angle.php:38 | the first position from i that matches, with nothing matching before it |
| Tokens.MatchMinutes | src/Angle.php:38 | the leftmost match of the minutes expression, or none anywhere |
| Tokens.ClosingQuote | src/Angle.php:43 | the position of a final `"` when the string ends with one |
| Tokens.SecondsAt | src/Angle.php:43 | the seconds attempt at one position ending at the final quote |
| Tokens.FindSeconds | src/Angle.php:43 | the first matching seconds position from i, with nothing matching before it |
| Tokens.MatchSeconds | src/Angle.php:43 | the leftmost match of the seconds expression, which must end the string, or none |
| Tokens.SecondsFirstMatch | src/Angle.php:43 | a match with no match before it is the one MatchSeconds returns |
| Tokens.SecondsValue | src/Builders/FromString.php:158-161 | the value of a seconds group lies in [0, 60) |
| Tokens.RejectedDegrees | src/Angle.php:33 | "361° 0' 0\"" has no degrees match |
| Tokens.RejectedMinutes | src/Angle.php:38 | "0° 60' 0\"" has no minutes match |
| Tokens.RejectedSeconds | src/Angle.php:43 | "0° 0' 60\"" has no seconds match |
| FromString.New | src/Builders/FromString.php:69-131 | NoMatch exactly when one of the three expressions matches nowhere; otherwise the degrees group is the anchored match and the minutes and seconds groups are the leftmost matches |
| FromString.Sign | src/Builders/FromString.php:168-171 | clockwise exactly when the integer value of the degrees token is negative |
| FromString.DegreesTokenValue | src/Builders/FromString.php:138-141 | a degrees token's integer value lies in −360..360 |
| FromString.MinutesTokenValue | src/Builders/FromString.php:148-151 | a minutes token's value lies in 0..59 |
| FromString.SecondsTokenOnGrid | src/Builders/FromString.php:158-161 | a seconds token's value has at most one decimal |
| FromString.FetchData | src/Builders/FromString.php:138-205 | degrees = \|int(token)\| in 0..360, minutes in 0..59, seconds in [0, 60) with one decimal; clockwise exactly when int(token) < 0; only the seconds-precision slot set |
| FromString.CreateFromString | src/Angle.php:150-153 | NoMatch exactly when parsing fails; otherwise all parts are in range |
| FromString.RejectedStrings | src/Builders/FromString.php:123-131 | 361°, 60′ and 60″ are each refused with NoMatch |
| FromString.MinusZeroIsCounterClockwise | src/Builders/FromString.php:168-171 | as written: the token "-0" gives a counter-clockwise angle |
| FromString.SignCorrected | src/Builders/FromString.php:168-171 | corrected: clockwise exactly when the degrees token starts with '-' |
| FromString.FetchDataCorrected | src/Builders/FromString.php:188-205 | corrected: the same parts as FetchData, with the sign from the leading '-' |
| FromString.CreateFromStringCorrected | src/Angle.php:150-153 | corrected: fails exactly when parsing fails |
| FromString.SignRulesAgree | src/Builders/FromString.php:168-171 | the two sign rules differ exactly on a '-' followed by zero |
| AngleText.FloatText | src/Angle.php:447-451 | the float text starts with '-' exactly for a negative value |
| AngleText.ToString | src/Angle.php:447-451 | the text ends with `"` and holds '°'; for non-negative degrees it starts with '-' exactly when the angle is clockwise |
| AngleText.NegativeDegreesText | src/Angle.php:447-451 | negative degrees print a '-' even for a counter-clockwise angle |
| AngleText.SecondsText | src/Angle.php:447-451 | printed one-decimal seconds below 60 form a valid seconds group |
| AngleText.PrintedParses | src/Builders/FromString.php:69-131 | the text of an in-range angle parses into its own three groups |
| AngleText.PrintedDegrees | src/Angle.php:33 | the degrees expression matches the printed sign and degrees |
| AngleText.PrintedMinutes | src/Angle.php:38 | the minutes expression first matches the printed minutes |
| AngleText.PrintedSeconds | src/Angle.php:43 | the seconds expression first matches the printed seconds |
| AngleText.RoundTripCorrected | src/Angle.php:447-451 | with the corrected sign rule, reading back the text of any in-range angle gives that angle |
| AngleText.RoundTripAsWritten | src/Builders/FromString.php:168-171 | as written, reading back the text gives the angle exactly unless it is clockwise with 0 degrees |
| AngleText.HalfDegreeClockwiseFlips | src/Builders/FromString.php:168-171 | 0°30′ clockwise prints "-0° 30' 0\"" and reads back counter-clockwise |
| FromAngles.SignedSeconds | src/Builders/FromAngles.php:159-166 | toTotalSeconds · direction: one decimal, within 0.05 of direction · 3600 · magnitude, a tie towards zero |
| FromAngles.Directed | src/Builders/FromAngles.php:159-166 | a one-decimal total near its target, times a direction, stays on the grid, stays as near the directed target, and a tie still lies towards zero |
| FromAngles.SignedSum | src/Builders/FromAngles.php:157-168 | the sum of the two signed totals, already on the one-decimal grid, so the round to 3 decimals changes nothing |
| FromAngles.NormaliseIsNormalised | src/Builders/FromAngles.php:169-176 | the closed-form normalisation meets the conservation law d·3600 + m·60 + s = t − turns · 1296000 with m < 60, s < 60 |
| FromAngles.NormalisedUnique | src/Builders/FromAngles.php:169-176 | two normalisations of the same magnitude have the same degrees, minutes and seconds |
| FromAngles.CheckOverflow | src/Builders/FromAngles.php:65-81 | the loop ends with 0 ≤ temp ≤ 1296000, keeps temp + turns · 1296000 = t, and keeps one full turn |
| FromAngles.CalcSeconds | src/Builders/FromAngles.php:122-139 | the loop ends with 0 ≤ seconds < 60 and seconds + 60 · carried minutes = the kept seconds |
| FromAngles.CalcMinutes | src/Builders/FromAngles.php:88-115 | the loop ends with minutes < 60 and 60 · degrees + minutes = the carried minutes |
| FromAngles.CalcSum | src/Builders/FromAngles.php:146-177 | clockwise exactly when the signed sum is negative; the parts normalise its magnitude; degrees ≤ 360 |
| FromAngles.CarryKeepsTotal | src/Builders/FromAngles.php:169-176 | the three loops' results together satisfy the conservation law |
| FromAngles.FetchData | src/Builders/FromAngles.php:186-190 | the fetched parts are the normalisation of \|sum\|, in range, with one-decimal seconds, clockwise exactly when the sum is negative |
| FromAngles.FullTurnSeconds | src/Builders/FromAngles.php:65-81 | a full turn is ±1296000 seconds |
| FromAngles.TwoTurnsNormalise | src/Builders/FromAngles.php:65-81 | 2592000 seconds normalise to 360°0′0″ |
| FromAngles.DoubleFullTurn | src/Builders/FromAngles.php:157-177 | 360° + 360° gives 360° counter-clockwise; −360° + −360° gives 360° clockwise |
| FromAngles.ToggleNegatesSeconds | src/Builders/FromAngles.php:159-166 | a toggled angle contributes minus its signed seconds |
| FromAngles.ToggleBothNegates | src/Builders/FromAngles.php:157-168 | toggling both operands negates the sum |
| FromAngles.SumCommutes | src/Builders/FromAngles.php:157-168 | the signed sum does not depend on operand order |
| SumBuilders.DecimalSum | src/Builders/FromAnglesToRelativeSum.php:44-51 | the rounded sum of both toDecimal values: on the grid, within half a unit, a tie towards zero, and negative exactly when the exact sum is below minus half a unit |
| SumBuilders.Derived | src/Builders/FromAnglesToRelativeSum.php:53-58 | the unseen derivation fills only the three part slots |
| RelativeSum.Sign | src/Builders/FromAnglesToRelativeSum.php:17-20 | clockwise exactly when the decimal sum is negative |
| RelativeSum.CalcSum | src/Builders/FromAnglesToRelativeSum.php:27-60 | both full positive gives 360° counter-clockwise; both full negative 360° clockwise; both null 0°; otherwise the decimal sum, rounded at the maximum suggested precision with a tie towards zero, signs the result and is carried into the parts |
| RelativeSum.FetchData | src/Builders/FromAnglesToRelativeSum.php:78-93 | the slots: suggested precision = decimal precision, original decimal = decimal sum, seconds precision = decimal places of the seconds, radian slots empty |
| RelativeSum.SameDirectionKept | src/Builders/FromAnglesToRelativeSum.php:17-53 | two angles of the same direction whose sum is not tiny keep that direction |
| RelativeSum.ShortcutOrder | src/Builders/FromAnglesToRelativeSum.php:29-43 | the shortcuts are tried full positive, full negative, null, and skip the decimal sum |
| AbsoluteSum.CalcSum | src/Builders/FromAnglesToAbsoluteSum.php:61-89 | always counter-clockwise; both full positive gives 360°; both null 0°; otherwise the decimal sum, rounded at the maximum suggested precision with a tie towards zero, is carried into the parts |
| AbsoluteSum.FetchData | src/Builders/FromAnglesToAbsoluteSum.php:39-54 | the slots: suggested precision = decimal places of the seconds + 6, original decimal = the decimal sum, radian slots empty |
| AbsoluteSum.RelativeTurnedCounterClockwise | src/Builders/FromAnglesToAbsoluteSum.php:61-101 | except for two full negatives, the absolute sum is the relative sum turned counter-clockwise |
| AbsoluteSum.FullNegativesDiffer | src/Builders/FromAnglesToAbsoluteSum.php:66-72 | two full negatives take the relative shortcut but the absolute general path |
| Comparison.OperandDecimal | src/Angle.php:271-284 | numeric operands and numeric strings take their value; an angle gives its toDecimal; another string gives the toDecimal of the angle it reads as, or NoMatch; anything else is InvalidArgument |
| Comparison.IsGreaterThan | src/Angle.php:271-284 | compares \|toDecimal(p)\| with \|operand\|; the operand's error is raised |
| Comparison.IsLessThan | src/Angle.php:340-352 | compares \|toDecimal()\| with \|operand\| at precision 1 |
| Comparison.IsEqual | src/Angle.php:411-428 | an angle operand is equal when degrees, minutes and seconds agree; other operands compare decimals |
| Comparison.IsGreaterThanOrEqual | src/Angle.php:306-319 | for accepted operands, isEqual or isGreaterThan |
| Comparison.IsLessThanOrEqual | src/Angle.php:373-386 | for accepted operands, isEqual or isLessThan |
| Comparison.InvalidOperandRefused | src/Angle.php:271-428 | all five comparisons raise InvalidArgument for an operand of another type |
| Comparison.ComparisonsIgnoreDirection | src/Angle.php:271-428 | toggling the angle changes no comparison |
| Comparison.EqualsReversal | src/Angle.php:416-421 | an angle equals its toggled copy |
| Comparison.RightAngleBeatsNegativeHalf | src/Angle.php:271-352 | 90° > −45° and −45° < 90° |
| Comparison.GreaterIsConverseOfLess | src/Angle.php:271-352 | a > b exactly when b < a |
| Comparison.NotGreaterAndLess | src/Angle.php:271-352 | no operand is both below and above an angle |
| Comparison.StrictExcludesEqual | src/Angle.php:271-428 | for a number or string, equal excludes greater and less |
| Comparison.IntTextComparesAsInt | src/Angle.php:273-276 | an integer and its decimal text compare alike |
| Comparison.DecimalFormsCompareAlike | src/Angle.php:271-352 | an angle, its toDecimal and that decimal's text compare alike |
| Comparison.PrintedAngleNotNumeric | src/Angle.php:273 | the text of an angle is never a numeric string |
| Comparison.PrintedOperandDecimal | src/Angle.php:277-279 | the text of an in-range angle is read back to the same absolute decimal |
| Comparison.PrintedAngleComparesAsAngle | src/Angle.php:271-352 | an in-range angle and its text compare alike |
| Numeric.Parse | src/Angle.php:273 | `Some(v)` exactly for a PHP 8 numeric string, v its exact value: optional leading whitespace, an optional sign, digits with at most one point and at least one digit, an optional exponent, optional trailing whitespace |
| Numeric.ParseChars | src/Angle.php:273 | an accepted numeric string uses only sign, digit, point, exponent and whitespace characters, and has a digit |
| Numeric.SignedDigitsNumeric | src/Angle.php:273 | an optionally signed digit run is numeric with its decimal value |
| Numeric.SignedTenthsNumeric | src/Angle.php:273 | an optionally signed digit run with one decimal is numeric with its value |
| Numeric.IntTextNumeric | src/Angle.php:273 | the decimal text of any integer is numeric with that value |
| Numeric.WhitespaceRunChars | src/Angle.php:273 | the skipped leading and trailing characters are all whitespace |
| Text.DigitsValueBound | src/Builders/FromString.php:138-151 | a digit string of length n is worth less than 10^n |

## Left out

- `toRadian` (src/Angle.php:257-260) is a float conversion through `deg2rad` that adds nothing beyond `toDecimal`.
- The PCRE engine is not modelled. The three expressions are recognised by hand. `RegExFailureException` is never thrown by the code modelled.
- The deprecated `ANGLE_REGEX` is used nowhere.
- IEEE-754 effects are not modelled: representation error, `PHP_FLOAT_DIG` digit loss, and PHP's exponent notation when a float is printed. Numbers are exact reals.
- AngleText.FloatText: prints a value in fixed notation, its fraction truncated to 15 decimals. PHP prints a float with 14 significant digits, rounded, and in exponent notation below 1e-4. The two agree for 0 and for values of at least 1e-4 with at most 14 significant digits and 15 decimals, which covers every one-decimal seconds value the round-trip lemmas print. They differ, for example, on the seconds 0.000036 that `createFromDecimal(0.00000001)` stores, which PHP prints as "3.6E-5".
- AngleText.ToString: prints the seconds through FloatText, so it matches PHP only where FloatText does.
- Exception message texts are not modelled. Only which exception is raised is.
- `src/Operations/Sum.php` and `src/Builders/SumBuilder.php` are pass-throughs to the builders. The interface files only declare methods.
- The aliases `gt`, `gte`, `lt`, `lte` and `eq` only call the methods modelled.
- As written, FromDecimal, FromString, FromAngles and the two sum builders cannot be declared by PHP. AngleBuilder declares `checkOverflow` and the four `calc*` methods `abstract public` (src/Builders/AngleBuilder.php:45-73), and these classes redeclare them `protected` (for example src/Builders/FromDecimal.php:59-118 and src/Builders/FromString.php:123-168). PHP refuses a subclass that narrows a method's visibility. So `createFromDecimal`, `createFromString`, the radian builder's `fetchData` and the string path of the comparisons would stop with a fatal error. The model takes these methods as callable, the way their bodies are written, and does not model that failure.
- `countDecimalPlaces` is a parameter because no definition exists. No property depends on how it counts.
- The sum builders' inherited helpers have no definition anywhere: the full/null tests, the maximum suggested precision, and the degree/minute/second derivation with its overflow correction. They are parameters (`SumBuilders.Collaborators`).
  - The initial state of 0°0′0″ counter-clockwise is taken from the tests.
  - Results that depend on these helpers are not proved, for example 1° + (−180°).
- INF and NAN operands do not exist among reals.
- AngleText.ToString: the "starts with '-' exactly when clockwise" property is stated only for non-negative degrees. `createFromValues` admits negative degrees, which print a '-' on a counter-clockwise angle (AngleText.NegativeDegreesText).
- Numeric.Parse: exponent-notation strings are recognised, but no lemma states their value.
- Mutation is not modelled. `toggleDirection` changes the angle in place and returns it; the model returns the toggled copy.

## Findings

| source | as written | input that shows it | evidently intended | confidence | as-written member | corrected member |
|---|---|---|---|---|---|---|
| src/Builders/FromDegrees.php:62-64 | the null-angle check looks at the seconds before `fetchData` rounds them to one decimal | `createFromValues(0, 0, 0.04, CLOCKWISE)` stores 0°0′0.0″ clockwise | every stored 0°0′0″ angle is counter-clockwise | not executed | FromDegrees.NullCheckBeforeRounding | FromDegrees.NullAnglesAreCounterClockwise |
| src/Builders/FromString.php:168-171 | the sign is the sign of `(int)` of the degrees token, and `(int)"-0"` is 0 | `createFromString("-0° 30' 0\"")`, the text of 0°30′ clockwise, reads back counter-clockwise | the text form reads back to the angle it came from | not executed | AngleText.HalfDegreeClockwiseFlips | AngleText.RoundTripCorrected |

=== FILE: angle.dfy ===
/**
 * The sexagesimal angle value (src/Angle.php): degrees, minutes, seconds and a
 * rotation direction, with its views, conversions and total-seconds helper.
 * The comparison family lives in module Comparison, the textual form in AngleText.
 */
module Angles {
  import opened Rounding

  const CLOCKWISE: int := -1
  const COUNTER_CLOCKWISE: int := 1
  /**
   * The limits of the sexagesimal fields. Where they enter arithmetic the model
   * writes them, and their products 3600 and 1296000, as literals, which keeps
   * that arithmetic linear for the verifier.
   */
  const MAX_DEGREES: int := 360
  const MAX_MINUTES: int := 60
  const MAX_SECONDS: int := 60

  /** PHP's M_PI, the literal in its source, as an exact real. */
  const M_PI: real := 3.14159265358979323846

  /** The radian measure of a round angle. */
  const MAX_RADIAN: real := 2.0 * M_PI

  /**
   * The four properties an Angle keeps from its builder's fetched data.
   * PHP types them int, int, float, int; nothing in the class restricts them further.
   */
  datatype Angle = Angle(degrees: int, minutes: int, seconds: real, direction: int)

  /** The two direction values every builder in the library produces. */
  predicate ValidDirection(direction: int) {
    direction == CLOCKWISE || direction == COUNTER_CLOCKWISE
  }

  /**
   * The unsigned decimal-degree magnitude that toDecimal rounds: minutes over
   * MAX_MINUTES and seconds over MAX_MINUTES * MAX_SECONDS, written as literals.
   */
  function Magnitude(a: Angle): real {
    a.degrees as real + a.minutes as real / 60.0 + a.seconds / 3600.0
  }

  /** The array getDegrees returns: a list, or an array keyed by field name. */
  datatype DegreesArray =
    | Listed(v0: int, v1: int, v2: real)
    | Keyed(degrees: int, minutes: int, seconds: real)

  /** The three values an array carries, whichever form it has. */
  function Entries(arr: DegreesArray): (int, int, real) {
    match arr
    case Listed(d, m, s) => (d, m, s)
    case Keyed(d, m, s) => (d, m, s)
  }

  /** getDegrees($associative): the sign is folded into the degrees entry only. */
  function GetDegrees(a: Angle, associative: bool := false): (r: DegreesArray)
    ensures r.Keyed? <==> associative
    ensures Entries(r).1 == a.minutes && Entries(r).2 == a.seconds
    ensures ValidDirection(a.direction) ==> AbsInt(Entries(r).0) == AbsInt(a.degrees)
    ensures a.direction == CLOCKWISE ==> Entries(r).0 == -a.degrees
    ensures a.direction == COUNTER_CLOCKWISE ==> Entries(r).0 == a.degrees
  {
    var d := a.degrees * a.direction;
    if associative then Keyed(d, a.minutes, a.seconds) else Listed(d, a.minutes, a.seconds)
  }

  predicate IsClockwise(a: Angle) {
    a.direction == CLOCKWISE
  }

  predicate IsCounterClockwise(a: Angle) {
    a.direction == COUNTER_CLOCKWISE
  }

  /**
   * toggleDirection(): the same degrees, minutes and seconds turning the other way.
   * The source multiplies the direction by CLOCKWISE, which is -1: a negation.
   */
  function ToggleDirection(a: Angle): (r: Angle)
    ensures r.degrees == a.degrees && r.minutes == a.minutes && r.seconds == a.seconds
    ensures IsClockwise(a) <==> IsCounterClockwise(r)
    ensures IsCounterClockwise(a) <==> IsClockwise(r)
  {
    a.(direction := -a.direction)
  }

  /** toDecimal($precision): signed decimal degrees, rounded half towards zero. */
  function ToDecimal(a: Angle, precision: int := 1): (r: real)
    ensures ValidDirection(a.direction) ==>
              Abs(r - a.direction as real * Magnitude(a)) <= HalfUnit(precision)
    ensures ValidDirection(a.direction) ==> OnGrid(r, precision)
    ensures ValidDirection(a.direction) && Abs(r - a.direction as real * Magnitude(a)) == HalfUnit(precision) ==>
              Abs(r) < Abs(Magnitude(a))
    ensures r < 0.0 && Magnitude(a) >= 0.0 ==> a.direction < 0
  {
    var r := RoundHalfTowardsZero(Magnitude(a), precision) * a.direction as real;
    DirectionPreservesRounding(a.direction, Magnitude(a), precision, r);
    r
  }

  /** Multiplying a rounded magnitude by a direction keeps its distance, grid and sign. */
  lemma DirectionPreservesRounding(direction: int, m: real, p: int, r: real)
    requires r == RoundHalfTowardsZero(m, p) * direction as real
    ensures ValidDirection(direction) ==> Abs(r - direction as real * m) <= HalfUnit(p)
    ensures ValidDirection(direction) ==> OnGrid(r, p)
    ensures ValidDirection(direction) && Abs(r - direction as real * m) == HalfUnit(p) ==> Abs(r) < Abs(m)
    ensures r < 0.0 && m >= 0.0 ==> direction < 0
  {
    if direction == CLOCKWISE {
      NegatedRounding(m, p, r);
    } else if direction == COUNTER_CLOCKWISE {
      assert r == RoundHalfTowardsZero(m, p);
    } else {
      SignOfProduct(RoundHalfTowardsZero(m, p), m, direction, r);
    }
  }

  /** A clockwise angle's decimal is the rounding of the negated magnitude. */
  lemma NegatedRounding(m: real, p: int, r: real)
    requires r == RoundHalfTowardsZero(m, p) * CLOCKWISE as real
    ensures Abs(r - CLOCKWISE as real * m) <= HalfUnit(p)
    ensures OnGrid(r, p)
    ensures Abs(r - CLOCKWISE as real * m) == HalfUnit(p) ==> Abs(r) < Abs(m)
    ensures r < 0.0 ==> m > 0.0
  {
    RoundOdd(m, p);
    assert r == RoundHalfTowardsZero(-m, p);
    assert CLOCKWISE as real * m == -m;
  }

  /** A non-negative rounded magnitude times a non-negative direction is non-negative. */
  lemma SignOfProduct(rounded: real, m: real, direction: int, r: real)
    requires r == rounded * direction as real
    requires m >= 0.0 ==> rounded >= 0.0
    ensures r < 0.0 && m >= 0.0 ==> direction < 0
  {
    if m >= 0.0 && direction >= 0 {
      assert rounded * direction as real >= 0.0;
    }
  }

  /** Angle::toTotalSeconds($angle, $precision): the whole angle counted in seconds. */
  function ToTotalSeconds(a: Angle, precision: int := 1): (r: real)
    ensures OnGrid(r, precision)
    ensures Abs(r - Magnitude(a) * 3600.0) <= HalfUnit(precision)
    ensures Abs(r - Magnitude(a) * 3600.0) == HalfUnit(precision) ==> Abs(r) < Abs(Magnitude(a) * 3600.0)
  {
    var total :=
      a.seconds + (a.minutes * 60) as real + (a.degrees * 3600) as real;
    assert total == Magnitude(a) * 3600.0;
    RoundHalfTowardsZero(total, precision)
  }

  /** An angle whose total already has at most `precision` decimals is counted exactly. */
  lemma TotalSecondsExact(a: Angle, precision: int, total: real)
    requires total == a.seconds + (a.minutes * 60) as real + (a.degrees * 3600) as real
    requires OnGrid(total, precision)
    ensures ToTotalSeconds(a, precision) == total
  {
    RoundOnGrid(total, precision);
  }

  /** Toggling twice restores the original angle, whatever its direction value. */
  lemma ToggleInvolution(a: Angle)
    ensures ToggleDirection(ToggleDirection(a)) == a
  {
  }

  /** Toggling negates the decimal value at every precision. */
  lemma ToggleNegatesDecimal(a: Angle, precision: int)
    ensures ToDecimal(ToggleDirection(a), precision) == -ToDecimal(a, precision)
  {
    var rounded := RoundHalfTowardsZero(Magnitude(a), precision);
    assert Magnitude(ToggleDirection(a)) == Magnitude(a);
    assert ToDecimal(ToggleDirection(a), precision) == rounded * (-a.direction) as real;
    NegatedFactor(rounded, a.direction);
  }

  /** Negating an integer factor negates the product. */
  lemma NegatedFactor(t: real, d: int)
    ensures t * (-d) as real == -(t * d as real)
  {
  }

  /** Toggling negates only the first getDegrees entry: the sign lives there alone. */
  lemma ToggleNegatesFirstEntry(a: Angle, associative: bool)
    ensures Entries(GetDegrees(ToggleDirection(a), associative)).0
         == -Entries(GetDegrees(a, associative)).0
    ensures Entries(GetDegrees(ToggleDirection(a), associative)).1
         == Entries(GetDegrees(a, associative)).1
    ensures Entries(GetDegrees(ToggleDirection(a), associative)).2
         == Entries(GetDegrees(a, associative)).2
  {
  }

  /** Both array forms of getDegrees carry the same three values. */
  lemma GetDegreesFormsAgree(a: Angle)
    ensures Entries(GetDegrees(a, true)) == Entries(GetDegrees(a, false))
  {
  }

  /** With a direction of ±1 exactly one of the two direction predicates holds. */
  lemma DirectionPredicatesExclusive(a: Angle)
    requires ValidDirection(a.direction)
    ensures IsClockwise(a) != IsCounterClockwise(a)
  {
  }
}

=== FILE: angle_text.dfy ===
/**
 * The textual form of an angle (Angle::__toString in src/Angle.php):
 * an optional '-', the degrees, '°', a space, the minutes, "' ", the seconds
 * as PHP prints a float, and '"'. Reading that text back with FromString is
 * the partner of printing it.
 */
module AngleText {
  import opened Wrappers
  import opened Rounding
  import opened Angles
  import opened Text
  import opened Tokens
  import opened Builder
  import opened FromString

  /** Up to `n` digits of a fraction 0 <= f < 1, without trailing zeros. */
  function FractionDigits(f: real, n: nat): (t: seq<char>)
    requires 0.0 <= f < 1.0
    ensures |t| <= n && AllDigits(t)
    ensures |t| > 0 ==> t[|t| - 1] != '0'
    decreases n
  {
    if n == 0 then []
    else
      var d := (f * 10.0).Floor;
      var rest := FractionDigits(f * 10.0 - d as real, n - 1);
      if d == 0 && rest == [] then [] else [DigitChar(d)] + rest
  }

  /** The text of a non-negative number: whole part, then a point and at most `digits` fraction digits if any. */
  function DecimalText(x: real, digits: nat): (t: seq<char>)
    requires x >= 0.0
    ensures |t| >= 1 && IsDigit(t[0])
  {
    var whole := x.Floor;
    var fraction := FractionDigits(x - whole as real, digits);
    NatText(whole) + (if fraction == [] then [] else ['.'] + fraction)
  }

  /**
   * PHP's conversion of a float to a string, in fixed notation with the
   * fraction cut after 15 digits. PHP itself keeps 14 significant digits and
   * turns to exponent notation below 1e-4; the two agree on 0 and on values of
   * at least 1e-4 with at most 14 significant digits and 15 decimals.
   */
  function FloatText(x: real): (t: seq<char>)
    ensures |t| >= 1
    ensures t[0] == '-' <==> x < 0.0
  {
    if x < 0.0 then ['-'] + DecimalText(-x, PHP_FLOAT_DIG) else DecimalText(x, PHP_FLOAT_DIG)
  }

  /** __toString: "{sign}{degrees}° {minutes}' {seconds}\"" with the sign '-' for a clockwise angle. */
  function ToString(a: Angle): (t: seq<char>)
    ensures |t| >= 1 && t[|t| - 1] == '"'
    ensures a.degrees >= 0 ==> (t[0] == '-' <==> IsClockwise(a))
    ensures DEGREE_SIGN in t
  {
    var sign := if IsClockwise(a) then "-" else "";
    var t := sign + IntText(a.degrees) + [DEGREE_SIGN, ' '] + IntText(a.minutes) + ['\'', ' ']
      + FloatText(a.seconds) + ['"'];
    assert t[|sign| + |IntText(a.degrees)|] == DEGREE_SIGN;
    t
  }

  /** FromDegrees lets negative degrees through, and then the '-' no longer means clockwise. */
  lemma NegativeDegreesText()
    ensures ToString(Angle(-10, 0, 0.0, COUNTER_CLOCKWISE))[0] == '-'
    ensures !IsClockwise(Angle(-10, 0, 0.0, COUNTER_CLOCKWISE))
  {
  }

  /** The angles __toString and FromString can carry: in range, seconds with at most one decimal. */
  predicate Canonical(a: Angle) {
    0 <= a.degrees <= 360 && 0 <= a.minutes <= 59
    && 0.0 <= a.seconds < 60.0 && OnGrid(a.seconds, 1) && ValidDirection(a.direction)
  }

  /** A fraction of zero prints no digits. */
  lemma {:induction false} FractionDigitsZero(n: nat)
    ensures FractionDigits(0.0, n) == []
  {
    if n > 0 {
      FractionDigitsZero(n - 1);
    }
  }

  /** A number below 100 prints as one digit, or as its tens digit then its units digit. */
  lemma NatTextShort(n: nat)
    requires n < 100
    ensures n < 10 ==> NatText(n) == [DigitChar(n)]
    ensures n >= 10 ==> NatText(n) == [DigitChar(n / 10), DigitChar(n % 10)]
  {
  }

  /** A value with at most one decimal splits into whole units and tenths. */
  lemma TenthsSplit(x: real) returns (whole: nat, tenths: nat)
    requires 0.0 <= x && OnGrid(x, 1)
    ensures whole == x.Floor && tenths <= 9
    ensures x == whole as real + tenths as real / 10.0
  {
    whole := x.Floor;
    assert x * Scale(1) == x * 10.0;
    var n := (x * 10.0).Floor;
    assert n as real == x * 10.0;
    tenths := n - 10 * whole;
  }

  /** With at most one decimal, the text is the whole part and, unless zero, one tenths digit. */
  lemma OneDecimalText(x: real, whole: nat, tenths: nat, digits: nat)
    requires 0.0 <= x && whole == x.Floor && tenths <= 9 && digits >= 1
    requires x == whole as real + tenths as real / 10.0
    ensures DecimalText(x, digits) == NatText(whole) + (if tenths == 0 then [] else ['.', DigitChar(tenths)])
  {
    assert x - whole as real == tenths as real / 10.0;
    OneFractionDigit(tenths, digits);
  }

  /** A single tenths digit prints as itself, or as nothing when it is zero. */
  lemma OneFractionDigit(tenths: nat, n: nat)
    requires tenths <= 9 && n >= 1
    ensures FractionDigits(tenths as real / 10.0, n)
         == (if tenths == 0 then [] else [DigitChar(tenths)])
  {
    var f := tenths as real / 10.0;
    assert f * 10.0 == tenths as real;
    assert (f * 10.0).Floor == tenths;
    FractionDigitsZero(n - 1);
  }

  /** Seconds below 60 with at most one decimal print as a seconds group worth the same. */
  lemma SecondsText(x: real)
    requires 0.0 <= x < 60.0 && OnGrid(x, 1)
    ensures SecondsDigits(FloatText(x))
    ensures SecondsValue(FloatText(x)) == x
  {
    var whole, tenths := TenthsSplit(x);
    OneDecimalText(x, whole, tenths, PHP_FLOAT_DIG);
    SecondsGroup(whole, tenths, FloatText(x));
  }

  /** A whole part below 60 and an optional tenths digit form a seconds group. */
  lemma SecondsGroup(whole: nat, tenths: nat, t: seq<char>)
    requires whole < 60 && tenths <= 9
    requires t == NatText(whole) + (if tenths == 0 then [] else ['.', DigitChar(tenths)])
    ensures SecondsDigits(t)
    ensures SecondsValue(t) == whole as real + tenths as real / 10.0
  {
    NatTextShort(whole);
    var w := NatText(whole);
    DigitsValueShort(w);
    assert DigitsValue(w) == whole;
    if tenths != 0 {
      assert t[..|t| - 2] == w;
      assert t[|t| - 2] == '.';
      assert DigitValue(t[|t| - 1]) == tenths;
      assert SecondsValue(t) == DigitsValue(w) as real + DigitValue(t[|t| - 1]) as real / 10.0;
    } else {
      assert t == w;
      assert |t| < 3;
      assert SecondsValue(t) == DigitsValue(w) as real;
    }
  }

  /** Where each piece of a printed angle sits in the text. */
  lemma Layout(s: seq<char>, sign: seq<char>, d: seq<char>, m: seq<char>, t: seq<char>)
    requires s == sign + d + [DEGREE_SIGN, ' '] + m + ['\'', ' '] + t + ['"']
    ensures var p := |sign| + |d| + 2;
            var q := p + |m| + 2;
            |s| == q + |t| + 1
            && s[..|sign| + |d|] == sign + d && s[|sign| + |d|] == DEGREE_SIGN && s[p - 1] == ' '
            && s[p..p + |m|] == m && s[p + |m|] == '\'' && s[q - 1] == ' '
            && s[q..q + |t|] == t && s[|s| - 1] == '"'
    ensures forall k :: 0 <= k < |sign| ==> s[k] == sign[k]
    ensures forall k :: 0 <= k < |d| ==> s[|sign| + k] == d[k]
  {
    var p := |sign| + |d| + 2;
    var q := p + |m| + 2;
    assert s[..|sign| + |d|] == sign + d;
    assert s[p..p + |m|] == m;
    assert s[q..q + |t|] == t;
    forall k | 0 <= k < |d|
      ensures s[|sign| + k] == d[k]
    {
      assert s[|sign| + k] == (sign + d)[|sign| + k];
    }
  }

  /** The degrees regex captures exactly the printed sign and degree digits. */
  lemma PrintedDegrees(s: seq<char>, sign: seq<char>, d: seq<char>, m: seq<char>, t: seq<char>)
    requires s == sign + d + [DEGREE_SIGN, ' '] + m + ['\'', ' '] + t + ['"']
    requires sign == "" || sign == "-"
    requires AllDigits(d) && ValidDegreeDigits(d)
    ensures MatchDegrees(s) == Some(sign + d)
  {
    Layout(s, sign, d, m, t);
    DegreeDigitsAlternatives(d);
    var g := sign + d;
    if sign == "-" {
      assert g[1..] == d;
    }
    assert DegreesMatch(s, g);
  }

  /** No minutes match starts before the printed minutes: no quote follows the degree digits. */
  lemma NoMinutesBefore(s: seq<char>, sign: seq<char>, d: seq<char>, m: seq<char>, t: seq<char>, j: nat, g: seq<char>)
    requires s == sign + d + [DEGREE_SIGN, ' '] + m + ['\'', ' '] + t + ['"']
    requires sign == "" || sign == "-"
    requires AllDigits(d) && j < |sign| + |d| + 2
    ensures !MinutesMatchAt(s, j, g)
  {
    Layout(s, sign, d, m, t);
    var e := |sign| + |d|;
    if j < |sign| {
      assert s[j] == '-';
    } else if j >= e {
      assert s[j] == DEGREE_SIGN || s[j] == ' ';
    } else {
      assert forall k :: j < k <= e + 1 ==> s[k] != '\'';
    }
  }

  /** The minutes regex first matches at the printed minutes, and captures them. */
  lemma PrintedMinutes(s: seq<char>, sign: seq<char>, d: seq<char>, m: seq<char>, t: seq<char>)
    requires s == sign + d + [DEGREE_SIGN, ' '] + m + ['\'', ' '] + t + ['"']
    requires sign == "" || sign == "-"
    requires AllDigits(d) && MinutesDigits(m)
    ensures MatchMinutes(s) == Some((|sign| + |d| + 2, m))
  {
    Layout(s, sign, d, m, t);
    var p := |sign| + |d| + 2;
    assert MinutesMatchAt(s, p, m);
    forall j: nat, g | j < p
      ensures !MinutesMatchAt(s, j, g)
    {
      NoMinutesBefore(s, sign, d, m, t, j, g);
    }
    var r := MatchMinutes(s);
    assert r.value.0 == p;
    MinutesGroupUnique(s, p, r.value.1, m);
  }

  /** At one position the minutes regex can capture only one group. */
  lemma MinutesGroupUnique(s: seq<char>, i: nat, g1: seq<char>, g2: seq<char>)
    requires MinutesMatchAt(s, i, g1) && MinutesMatchAt(s, i, g2)
    ensures g1 == g2
  {
    assert forall k :: i <= k < i + |g1| ==> IsDigit(s[k]);
    assert forall k :: i <= k < i + |g2| ==> IsDigit(s[k]);
  }

  /** A seconds group holds only digits and at most a point. */
  lemma SecondsGroupChars(g: seq<char>)
    ensures SecondsDigits(g) ==> forall k :: 0 <= k < |g| ==> IsDigit(g[k]) || g[k] == '.'
  {
  }

  /** No seconds match starts before the printed seconds: it would have to take in the space before them. */
  lemma NoSecondsBefore(s: seq<char>, sign: seq<char>, d: seq<char>, m: seq<char>, t: seq<char>, j: nat, g: seq<char>)
    requires s == sign + d + [DEGREE_SIGN, ' '] + m + ['\'', ' '] + t + ['"']
    requires j < |sign| + |d| + |m| + 4
    ensures !SecondsMatchAt(s, j, g)
  {
    Layout(s, sign, d, m, t);
    var q := |sign| + |d| + |m| + 4;
    SecondsGroupChars(g);
    assert s[|s| - 1] != '\n' && s[q - 1] == ' ';
    if j + |g| == |s| - 1 && s[j..j + |g|] == g {
      assert g[q - 1 - j] == ' ';
    }
  }

  /** The printed seconds are a seconds match: after a space, and followed by the closing quote at the very end. */
  lemma SecondsMatchPrinted(s: seq<char>, sign: seq<char>, d: seq<char>, m: seq<char>, t: seq<char>)
    requires s == sign + d + [DEGREE_SIGN, ' '] + m + ['\'', ' '] + t + ['"']
    requires SecondsDigits(t)
    ensures SecondsMatchAt(s, |sign| + |d| + |m| + 4, t)
    ensures |s| == |sign| + |d| + |m| + 4 + |t| + 1
  {
    Layout(s, sign, d, m, t);
  }

  /** The seconds regex first matches at the printed seconds, and captures them. */
  lemma PrintedSeconds(s: seq<char>, sign: seq<char>, d: seq<char>, m: seq<char>, t: seq<char>)
    requires s == sign + d + [DEGREE_SIGN, ' '] + m + ['\'', ' '] + t + ['"']
    requires SecondsDigits(t)
    ensures MatchSeconds(s) == Some((|sign| + |d| + |m| + 4, t))
  {
    var q := |sign| + |d| + |m| + 4;
    SecondsMatchPrinted(s, sign, d, m, t);
    forall j: nat, g | j < q
      ensures !SecondsMatchAt(s, j, g)
    {
      NoSecondsBefore(s, sign, d, m, t, j, g);
    }
    SecondsFirstMatch(s, q, t);
  }

  /** The '-' that __toString puts before a clockwise angle. */
  function SignText(a: Angle): seq<char> {
    if IsClockwise(a) then "-" else ""
  }

  /** The printed degrees group is worth the degrees, negated under a '-', and begins with '-' only then. */
  lemma DegreesTokenPrinted(sign: seq<char>, deg: nat)
    requires sign == "" || sign == "-"
    ensures SignedValue(sign + NatText(deg)) == (if sign == "-" then -1 else 1) * deg
    ensures (sign + NatText(deg))[0] == '-' <==> sign == "-"
  {
    if sign == "-" {
      assert (sign + NatText(deg))[1..] == NatText(deg);
    } else {
      assert sign + NatText(deg) == NatText(deg);
    }
  }

  /** The groups __toString prints for a canonical angle have the shapes the regexes accept. */
  lemma PrintedGroups(a: Angle, d: seq<char>, m: seq<char>, t: seq<char>)
    requires Canonical(a)
    requires d == NatText(a.degrees) && m == NatText(a.minutes) && t == FloatText(a.seconds)
    ensures AllDigits(d) && ValidDegreeDigits(d)
    ensures MinutesDigits(m)
    ensures SecondsDigits(t) && SecondsValue(t) == a.seconds
  {
    NatTextLength(a.degrees);
    NatTextShort(a.minutes);
    SecondsText(a.seconds);
  }

  /** The text of a canonical angle passes all three regexes, which capture the printed groups. */
  lemma PrintedParses(a: Angle, s: seq<char>, d: seq<char>, m: seq<char>, t: seq<char>)
    requires Canonical(a) && s == ToString(a)
    requires d == NatText(a.degrees) && m == NatText(a.minutes) && t == FloatText(a.seconds)
    ensures New(s) == Ok(State(SignText(a) + d, m, t))
  {
    assert s == SignText(a) + d + [DEGREE_SIGN, ' '] + m + ['\'', ' '] + t + ['"'];
    PrintedGroups(a, d, m, t);
    PrintedTokens(s, SignText(a), d, m, t);
  }

  /** Text laid out as the printed form, with well-formed groups, is accepted with those groups. */
  lemma PrintedTokens(s: seq<char>, sign: seq<char>, d: seq<char>, m: seq<char>, t: seq<char>)
    requires s == sign + d + [DEGREE_SIGN, ' '] + m + ['\'', ' '] + t + ['"']
    requires sign == "" || sign == "-"
    requires AllDigits(d) && ValidDegreeDigits(d) && MinutesDigits(m) && SecondsDigits(t)
    ensures New(s) == Ok(State(sign + d, m, t))
  {
    PrintedDegrees(s, sign, d, m, t);
    PrintedMinutes(s, sign, d, m, t);
    PrintedSeconds(s, sign, d, m, t);
  }

  /**
   * Reading back the text of a canonical angle restores its degrees, minutes and
   * seconds; as written the direction survives unless the degrees are zero.
   */
  lemma ReadBack(a: Angle, places: real -> nat)
    requires Canonical(a)
    ensures CreateFromStringCorrected(ToString(a), places) == Ok(a)
    ensures CreateFromString(ToString(a), places)
         == Ok(a.(direction := if IsClockwise(a) && a.degrees > 0 then CLOCKWISE else COUNTER_CLOCKWISE))
  {
    var s, d, m, t := ToString(a), NatText(a.degrees), NatText(a.minutes), FloatText(a.seconds);
    var st := State(SignText(a) + d, m, t);
    PrintedParses(a, s, d, m, t);
    CreateFromParsed(s, st, places);
    FetchPrinted(a, places, st);
  }

  /** The printed groups fetch back the angle's degrees, minutes and seconds. */
  lemma FetchPrinted(a: Angle, places: real -> nat, st: State)
    requires Canonical(a)
    requires st == State(SignText(a) + NatText(a.degrees), NatText(a.minutes), FloatText(a.seconds))
    requires ValidState(st)
    ensures AngleOf(FetchDataCorrected(st, places)) == a
    ensures AngleOf(FetchData(st, places))
         == a.(direction := if IsClockwise(a) && a.degrees > 0 then CLOCKWISE else COUNTER_CLOCKWISE)
  {
    PrintedGroups(a, st.degreesToken[|SignText(a)|..], st.minutesToken, st.secondsToken);
    assert st.degreesToken[|SignText(a)|..] == NatText(a.degrees);
    DegreesTokenPrinted(SignText(a), a.degrees);
    var f := FetchData(st, places);
    assert f.degrees == a.degrees && f.minutes == a.minutes && f.seconds == a.seconds;
    assert f.direction == (if IsClockwise(a) && a.degrees > 0 then CLOCKWISE else COUNTER_CLOCKWISE);
    var fc := FetchDataCorrected(st, places);
    assert fc.direction == a.direction;
    assert AngleOf(fc) == Angle(f.degrees, f.minutes, f.seconds, a.direction);
  }

  /** Once the constructor has accepted the groups, both readings build the angle from them. */
  lemma CreateFromParsed(s: seq<char>, st: State, places: real -> nat)
    requires New(s) == Ok(st)
    ensures ValidState(st)
    ensures CreateFromString(s, places) == Ok(AngleOf(FetchData(st, places)))
    ensures CreateFromStringCorrected(s, places) == Ok(AngleOf(FetchDataCorrected(st, places)))
  {
  }

  /** The round trip through text, with the corrected direction rule. */
  lemma RoundTripCorrected(a: Angle, places: real -> nat)
    requires Canonical(a)
    ensures CreateFromStringCorrected(ToString(a), places) == Ok(a)
  {
    ReadBack(a, places);
  }

  /** The round trip through text as written holds for every canonical angle except a clockwise one of zero degrees. */
  lemma RoundTripAsWritten(a: Angle, places: real -> nat)
    requires Canonical(a)
    ensures CreateFromString(ToString(a), places) == Ok(a) <==> !(IsClockwise(a) && a.degrees == 0)
  {
    ReadBack(a, places);
  }

  /** -0°30'0" is printed for a clockwise half degree and read back counter-clockwise. */
  lemma HalfDegreeClockwiseFlips(places: real -> nat)
    ensures ToString(Angle(0, 30, 0.0, CLOCKWISE))[0] == '-'
    ensures CreateFromString(ToString(Angle(0, 30, 0.0, CLOCKWISE)), places)
         == Ok(Angle(0, 30, 0.0, COUNTER_CLOCKWISE))
  {
    ReadBack(Angle(0, 30, 0.0, CLOCKWISE), places);
  }
}

=== FILE: builder.dfy ===
/**
 * The builder protocol shared by every way of making an angle
 * (src/Builders/AngleBuilder.php): a builder holds degrees, minutes, seconds
 * and a direction, and the Angle constructor keeps the first four values of
 * the array its fetchData returns.
 */
module Builder {
  import opened Wrappers
  import opened Rounding
  import opened Angles

  /** A builder's direction before any calculation touches it. */
  const DEFAULT_DIRECTION: int := COUNTER_CLOCKWISE

  /**
   * Slots 5 to 9 of the array the decimal-aware builders return: suggested
   * decimal precision, original decimal, seconds precision, original radian
   * and radian precision, each possibly null.
   */
  datatype Provenance = Provenance(
    suggestedPrecision: Option<int>,
    originalDecimal: Option<real>,
    secondsPrecision: Option<int>,
    originalRadian: Option<real>,
    radianPrecision: Option<int>)

  /** The array fetchData returns: four values, then the provenance slots if the builder has them. */
  datatype Fetched = Fetched(
    degrees: int,
    minutes: int,
    seconds: real,
    direction: int,
    provenance: Option<Provenance>)

  /** AngleBuilder::fetchData: the four fields in order, seconds rounded half away from zero to one decimal. */
  function BaseFetch(degrees: int, minutes: int, seconds: real, direction: int): (f: Fetched)
    ensures f.degrees == degrees && f.minutes == minutes && f.direction == direction
    ensures OnGrid(f.seconds, 1) && Abs(f.seconds - seconds) <= HalfUnit(1)
    ensures Abs(f.seconds - seconds) == HalfUnit(1) ==> Abs(f.seconds) > Abs(seconds)
    ensures OnGrid(seconds, 1) ==> f.seconds == seconds
    ensures f.provenance.None?
  {
    var s := RoundHalfAway(seconds, 1);
    assert OnGrid(seconds, 1) ==> s == seconds by {
      if OnGrid(seconds, 1) { RoundOnGrid(seconds, 1); }
    }
    Fetched(degrees, minutes, s, direction, None)
  }

  /** new Angle($builder): the destructuring assignment keeps slots 1 to 4 and drops the rest. */
  function AngleOf(f: Fetched): (a: Angle)
    ensures a.degrees == f.degrees && a.minutes == f.minutes
    ensures a.seconds == f.seconds && a.direction == f.direction
  {
    Angle(f.degrees, f.minutes, f.seconds, f.direction)
  }

  /** Fetching again from what was fetched changes nothing: the base fetch is idempotent. */
  lemma BaseFetchIdempotent(degrees: int, minutes: int, seconds: real, direction: int)
    ensures var f := BaseFetch(degrees, minutes, seconds, direction);
            BaseFetch(f.degrees, f.minutes, f.seconds, f.direction) == f
  {
  }

  /** An angle built from an angle's own four values is that angle, whatever the provenance. */
  lemma AngleOfRoundTrip(a: Angle, provenance: Option<Provenance>)
    ensures AngleOf(Fetched(a.degrees, a.minutes, a.seconds, a.direction, provenance)) == a
  {
  }
}

=== FILE: comparison.dfy ===
/**
 * The comparison family of src/Angle.php: isGreaterThan, isGreaterThanOrEqual,
 * isLessThan, isLessThanOrEqual and isEqual (gt, gte, lt, lte and eq are
 * aliases). Numeric operands and angles compare by the magnitude of their
 * decimal degrees; other strings are first read as angles with
 * createFromString; anything else is an invalid argument.
 */
module Comparison {
  import opened Wrappers
  import opened Exceptions
  import opened Rounding
  import opened Angles
  import opened Text
  import opened Tokens
  import opened Numeric
  import opened FromString
  import opened AngleText

  /** The argument of a comparison, by its PHP type; OtherArg stands for null, booleans, arrays and other objects. */
  datatype Operand =
    | IntArg(i: int)
    | FloatArg(x: real)
    | StringArg(s: seq<char>)
    | AngleArg(a: Angle)
    | OtherArg

  /** is_numeric, and the number abs() then sees. */
  function NumericValue(op: Operand): Option<real> {
    match op
    case IntArg(i) => Some(i as real)
    case FloatArg(x) => Some(x)
    case StringArg(s) => Parse(s)
    case _ => None
  }

  /** The decimal places of the seconds only fill provenance, which the Angle constructor drops. */
  function NoPlaces(seconds: real): nat {
    0
  }

  /**
   * The decimal degrees a comparison holds the operand to: a number as it is,
   * an angle's toDecimal, the toDecimal of the angle a string describes.
   */
  function OperandDecimal(op: Operand, precision: int): (r: Result<real, Error>)
    ensures r.Err? <==> op.OtherArg? || (op.StringArg? && Parse(op.s).None? && New(op.s).Err?)
    ensures r.Err? ==> r.error == (if op.OtherArg? then InvalidArgument else NoMatch)
    ensures NumericValue(op).Some? ==> r == Ok(NumericValue(op).value)
    ensures op.AngleArg? ==> r == Ok(ToDecimal(op.a, precision))
    ensures op.StringArg? && Parse(op.s).None? && r.Ok? ==>
              r.value == ToDecimal(CreateFromString(op.s, NoPlaces).value, precision)
  {
    if NumericValue(op).Some? then Ok(NumericValue(op).value)
    else match op
      case AngleArg(b) => Ok(ToDecimal(b, precision))
      case StringArg(s) =>
        (match CreateFromString(s, NoPlaces)
         case Err(e) => Err(e)
         case Ok(b) => Ok(ToDecimal(b, precision)))
      case _ => Err(InvalidArgument)
  }

  /** isGreaterThan($angle, $precision): this angle's magnitude is larger. */
  function IsGreaterThan(a: Angle, op: Operand, precision: int := 1): (r: Result<bool, Error>)
    ensures r.Err? <==> OperandDecimal(op, precision).Err?
    ensures r.Err? ==> r.error == (if op.OtherArg? then InvalidArgument else NoMatch)
    ensures r.Ok? ==> (r.value <==> Abs(ToDecimal(a, precision)) > Abs(OperandDecimal(op, precision).value))
  {
    match OperandDecimal(op, precision)
    case Err(e) => Err(e)
    case Ok(d) => Ok(Abs(ToDecimal(a, precision)) > Abs(d))
  }

  /** isLessThan($angle): this angle's magnitude is smaller, both at one decimal. */
  function IsLessThan(a: Angle, op: Operand): (r: Result<bool, Error>)
    ensures r.Err? <==> OperandDecimal(op, 1).Err?
    ensures r.Err? ==> r.error == (if op.OtherArg? then InvalidArgument else NoMatch)
    ensures r.Ok? ==> (r.value <==> Abs(ToDecimal(a)) < Abs(OperandDecimal(op, 1).value))
  {
    match OperandDecimal(op, 1)
    case Err(e) => Err(e)
    case Ok(d) => Ok(Abs(ToDecimal(a)) < Abs(d))
  }

  /**
   * isEqual($angle, $precision): an angle matches on degrees, minutes and seconds,
   * whatever the directions; numbers and strings match on the magnitude of the decimal.
   */
  function IsEqual(a: Angle, op: Operand, precision: int := 1): (r: Result<bool, Error>)
    ensures r.Err? <==> OperandDecimal(op, precision).Err?
    ensures r.Err? ==> r.error == (if op.OtherArg? then InvalidArgument else NoMatch)
    ensures op.AngleArg? ==>
              r == Ok(a.degrees == op.a.degrees && a.minutes == op.a.minutes && a.seconds == op.a.seconds)
    ensures r.Ok? && !op.AngleArg? ==>
              (r.value <==> Abs(ToDecimal(a, precision)) == Abs(OperandDecimal(op, precision).value))
  {
    match op
    case AngleArg(b) => Ok(a.degrees == b.degrees && a.minutes == b.minutes && a.seconds == b.seconds)
    case _ =>
      match OperandDecimal(op, precision)
      case Err(e) => Err(e)
      case Ok(d) => Ok(Abs(ToDecimal(a, precision)) == Abs(d))
  }

  /** isGreaterThanOrEqual($angle): refuse an invalid type, else equal at one decimal, else greater at one decimal. */
  function IsGreaterThanOrEqual(a: Angle, op: Operand): (r: Result<bool, Error>)
    ensures op.OtherArg? ==> r == Err(InvalidArgument)
    ensures r.Err? <==> IsEqual(a, op).Err?
    ensures r.Ok? ==> (r.value <==> IsEqual(a, op) == Ok(true) || IsGreaterThan(a, op) == Ok(true))
  {
    if op.OtherArg? then Err(InvalidArgument)
    else
      match IsEqual(a, op)
      case Err(e) => Err(e)
      case Ok(equal) => if equal then Ok(true) else IsGreaterThan(a, op)
  }

  /** isLessThanOrEqual($angle): refuse an invalid type, else equal at one decimal, else less at one decimal. */
  function IsLessThanOrEqual(a: Angle, op: Operand): (r: Result<bool, Error>)
    ensures op.OtherArg? ==> r == Err(InvalidArgument)
    ensures r.Err? <==> IsEqual(a, op).Err?
    ensures r.Ok? ==> (r.value <==> IsEqual(a, op) == Ok(true) || IsLessThan(a, op) == Ok(true))
  {
    if op.OtherArg? then Err(InvalidArgument)
    else
      match IsEqual(a, op)
      case Err(e) => Err(e)
      case Ok(equal) => if equal then Ok(true) else IsLessThan(a, op)
  }

  /** Every comparison refuses an operand of another type with an invalid-argument error. */
  lemma InvalidOperandRefused(a: Angle, precision: int)
    ensures IsGreaterThan(a, OtherArg, precision) == Err(InvalidArgument)
    ensures IsLessThan(a, OtherArg) == Err(InvalidArgument)
    ensures IsEqual(a, OtherArg, precision) == Err(InvalidArgument)
    ensures IsGreaterThanOrEqual(a, OtherArg) == Err(InvalidArgument)
    ensures IsLessThanOrEqual(a, OtherArg) == Err(InvalidArgument)
  {
  }

  /** Comparisons look at magnitudes only: reversing this angle changes none of them. */
  lemma ComparisonsIgnoreDirection(a: Angle, op: Operand, precision: int)
    ensures IsGreaterThan(ToggleDirection(a), op, precision) == IsGreaterThan(a, op, precision)
    ensures IsLessThan(ToggleDirection(a), op) == IsLessThan(a, op)
    ensures IsEqual(ToggleDirection(a), op, precision) == IsEqual(a, op, precision)
  {
    ToggleNegatesDecimal(a, precision);
    ToggleNegatesDecimal(a, 1);
  }

  /** An angle equals its own reversal: isEqual with an angle ignores direction. */
  lemma EqualsReversal(a: Angle, precision: int)
    ensures IsEqual(a, AngleArg(ToggleDirection(a)), precision) == Ok(true)
  {
  }

  /** 90° is greater than −45°, since the magnitudes are compared. */
  lemma RightAngleBeatsNegativeHalf(a: Angle, b: Angle)
    requires a == Angle(90, 0, 0.0, COUNTER_CLOCKWISE) && b == Angle(45, 0, 0.0, CLOCKWISE)
    ensures IsGreaterThan(a, AngleArg(b)) == Ok(true)
    ensures IsLessThan(b, AngleArg(a)) == Ok(true)
  {
    WholeOnGrid(90.0, 1);
    RoundOnGrid(90.0, 1);
    WholeOnGrid(45.0, 1);
    RoundOnGrid(45.0, 1);
    assert Magnitude(a) == 90.0 && Magnitude(b) == 45.0;
    assert ToDecimal(a) == 90.0 && ToDecimal(b) == -45.0;
  }

  /** Between two angles at one decimal, "a greater than b" is "b less than a". */
  lemma GreaterIsConverseOfLess(a: Angle, b: Angle)
    ensures IsGreaterThan(a, AngleArg(b)) == IsLessThan(b, AngleArg(a))
  {
  }

  /** No operand is both smaller and larger than an angle. */
  lemma NotGreaterAndLess(a: Angle, op: Operand)
    ensures !(IsGreaterThan(a, op) == Ok(true) && IsLessThan(a, op) == Ok(true))
  {
  }

  /** "Greater" and "less" exclude "equal" on numbers and strings, where all three compare decimals. */
  lemma StrictExcludesEqual(a: Angle, op: Operand)
    requires !op.AngleArg?
    ensures IsEqual(a, op) == Ok(true) ==> IsGreaterThan(a, op) == Ok(false) && IsLessThan(a, op) == Ok(false)
  {
  }

  /** An integer and its decimal text compare alike: both are numeric and worth the same. */
  lemma IntTextComparesAsInt(a: Angle, i: int, precision: int)
    ensures IsGreaterThan(a, StringArg(IntText(i)), precision) == IsGreaterThan(a, IntArg(i), precision)
    ensures IsLessThan(a, StringArg(IntText(i))) == IsLessThan(a, IntArg(i))
    ensures IsEqual(a, StringArg(IntText(i)), precision) == IsEqual(a, IntArg(i), precision)
  {
    IntTextNumeric(i);
  }

  /** PHP's text for a number with at most one decimal: its sign, its whole part and, unless zero, one tenths digit. */
  lemma OneDecimalFloatText(x: real, whole: nat, tenths: nat)
    requires whole == Abs(x).Floor && tenths <= 9
    requires Abs(x) == whole as real + tenths as real / 10.0
    ensures FloatText(x) == (if x < 0.0 then "-" else "") + NatText(whole)
                            + (if tenths == 0 then [] else ['.', DigitChar(tenths)])
  {
    var m := Abs(x);
    var opt: seq<char> := if tenths == 0 then [] else ['.', DigitChar(tenths)];
    OneDecimalText(m, whole, tenths, PHP_FLOAT_DIG);
    if x < 0.0 {
      assert FloatText(x) == ['-'] + DecimalText(m, PHP_FLOAT_DIG);
      assert FloatText(x) == "-" + NatText(whole) + opt;
    } else {
      assert FloatText(x) == DecimalText(m, PHP_FLOAT_DIG);
    }
  }

  /** A sign, a whole part and an optional tenths digit parse to the signed value they spell. */
  lemma OneDecimalParse(t: seq<char>, negative: bool, whole: nat, tenths: nat, v: real)
    requires tenths <= 9
    requires t == (if negative then "-" else "") + NatText(whole)
                  + (if tenths == 0 then [] else ['.', DigitChar(tenths)])
    requires v == whole as real + tenths as real / 10.0
    ensures Parse(t) == Some(if negative then -v else v)
  {
    var sign := if negative then "-" else "";
    var d := NatText(whole);
    if tenths == 0 {
      SignedDigitsNumeric(t, sign, d, v);
    } else {
      SignedTenthsNumeric(t, sign, d, DigitChar(tenths), v);
    }
  }

  /** PHP's text for a number with at most one decimal is numeric and worth that number. */
  lemma OneDecimalNumeric(x: real)
    requires OnGrid(x, 1)
    ensures Parse(FloatText(x)) == Some(x)
  {
    GridAbs(x, 1);
    var whole, tenths := TenthsSplit(Abs(x));
    OneDecimalFloatText(x, whole, tenths);
    OneDecimalParse(FloatText(x), x < 0.0, whole, tenths, Abs(x));
  }

  /** An angle, its decimal, and the decimal's text all compare alike at one decimal. */
  lemma DecimalFormsCompareAlike(a: Angle, b: Angle)
    requires ValidDirection(b.direction)
    ensures IsGreaterThan(a, StringArg(FloatText(ToDecimal(b)))) == IsGreaterThan(a, FloatArg(ToDecimal(b)))
    ensures IsGreaterThan(a, FloatArg(ToDecimal(b))) == IsGreaterThan(a, AngleArg(b))
    ensures IsLessThan(a, StringArg(FloatText(ToDecimal(b)))) == IsLessThan(a, AngleArg(b))
  {
    OneDecimalNumeric(ToDecimal(b));
    NumericTextComparesAsNumber(a, FloatText(ToDecimal(b)), ToDecimal(b));
    DecimalComparesAsAngle(a, b);
  }

  /** A numeric string compares like the number it spells. */
  lemma NumericTextComparesAsNumber(a: Angle, s: seq<char>, x: real)
    requires Parse(s) == Some(x)
    ensures IsGreaterThan(a, StringArg(s)) == IsGreaterThan(a, FloatArg(x))
    ensures IsLessThan(a, StringArg(s)) == IsLessThan(a, FloatArg(x))
  {
    assert NumericValue(StringArg(s)) == Some(x);
  }

  /** An angle's decimal at one decimal compares like the angle. */
  lemma DecimalComparesAsAngle(a: Angle, b: Angle)
    ensures IsGreaterThan(a, FloatArg(ToDecimal(b))) == IsGreaterThan(a, AngleArg(b))
    ensures IsLessThan(a, FloatArg(ToDecimal(b))) == IsLessThan(a, AngleArg(b))
  {
  }

  /** The text __toString prints is never numeric: it holds a degree sign. */
  lemma PrintedAngleNotNumeric(a: Angle)
    ensures Parse(ToString(a)) == None
  {
    ParseChars(ToString(a));
    assert !NumericChar(DEGREE_SIGN);
  }

  /** The text of a canonical angle stands, in a comparison, for a decimal of the angle's magnitude. */
  lemma PrintedOperandDecimal(b: Angle, precision: int)
    requires Canonical(b)
    ensures OperandDecimal(StringArg(ToString(b)), precision).Ok?
    ensures Abs(OperandDecimal(StringArg(ToString(b)), precision).value) == Abs(ToDecimal(b, precision))
  {
    PrintedAngleNotNumeric(b);
    ReadBack(b, NoPlaces);
    var read := b.(direction := if IsClockwise(b) && b.degrees > 0 then CLOCKWISE else COUNTER_CLOCKWISE);
    StringOperand(ToString(b), read, precision);
    SameMagnitude(b, read, precision);
  }

  /** A non-numeric string that FromString accepts stands for the decimal of the angle it describes. */
  lemma StringOperand(s: seq<char>, read: Angle, precision: int)
    requires Parse(s) == None && CreateFromString(s, NoPlaces) == Ok(read)
    ensures OperandDecimal(StringArg(s), precision) == Ok(ToDecimal(read, precision))
  {
    var r := OperandDecimal(StringArg(s), precision);
    assert New(s).Ok?;
    assert r.Ok?;
  }

  /** A canonical angle and its text compare alike: the text is read back as the same angle, up to direction. */
  lemma PrintedAngleComparesAsAngle(a: Angle, b: Angle, precision: int)
    requires Canonical(b)
    ensures IsGreaterThan(a, StringArg(ToString(b)), precision) == IsGreaterThan(a, AngleArg(b), precision)
    ensures IsLessThan(a, StringArg(ToString(b))) == IsLessThan(a, AngleArg(b))
  {
    PrintedOperandDecimal(b, precision);
    PrintedOperandDecimal(b, 1);
    SameOperandMagnitude(a, ToString(b), b, precision);
  }

  /** A string whose decimal has the magnitude of an angle's compares like that angle. */
  lemma SameOperandMagnitude(a: Angle, s: seq<char>, b: Angle, precision: int)
    requires OperandDecimal(StringArg(s), precision).Ok? && OperandDecimal(StringArg(s), 1).Ok?
    requires Abs(OperandDecimal(StringArg(s), precision).value) == Abs(ToDecimal(b, precision))
    requires Abs(OperandDecimal(StringArg(s), 1).value) == Abs(ToDecimal(b, 1))
    ensures IsGreaterThan(a, StringArg(s), precision) == IsGreaterThan(a, AngleArg(b), precision)
    ensures IsLessThan(a, StringArg(s)) == IsLessThan(a, AngleArg(b))
  {
  }

  /** Two angles that differ at most in direction have decimals of the same magnitude. */
  lemma SameMagnitude(b: Angle, c: Angle, precision: int)
    requires ValidDirection(b.direction) && ValidDirection(c.direction)
    requires c == b.(direction := c.direction)
    ensures Abs(ToDecimal(c, precision)) == Abs(ToDecimal(b, precision))
  {
    if c.direction != b.direction {
      assert c == ToggleDirection(b);
      ToggleNegatesDecimal(b, precision);
    }
  }
}

=== FILE: from_angles.dfy ===
/**
 * The seconds-space sum of two angles (src/Builders/FromAngles.php): both
 * addends become signed total seconds, their sum gives the direction, whole
 * turns above one round angle are dropped, and the rest is carried into
 * seconds, minutes and degrees.
 */
module FromAngles {
  import opened Wrappers
  import opened Rounding
  import opened Angles
  import opened Builder

  /** The seconds in one round angle, 360 · 60 · 60. */
  const FULL_ANGLE: int := 1296000

  /** An addend's signed total seconds: toTotalSeconds at one decimal, times its direction. */
  function SignedSeconds(a: Angle): (t: real)
    ensures OnGrid(t, 1)
    ensures ValidDirection(a.direction) ==> Abs(t - a.direction as real * (Magnitude(a) * 3600.0)) <= HalfUnit(1)
    ensures ValidDirection(a.direction) && Abs(t - a.direction as real * (Magnitude(a) * 3600.0)) == HalfUnit(1) ==>
              Abs(t) < Abs(Magnitude(a) * 3600.0)
  {
    Directed(ToTotalSeconds(a), a.direction, Magnitude(a) * 3600.0)
  }

  /**
   * A one-decimal value near its target, times a direction: still on the grid,
   * as near the directed target, and a tie still lies towards zero.
   */
  function Directed(total: real, direction: int, ghost target: real): (t: real)
    requires OnGrid(total, 1) && Abs(total - target) <= HalfUnit(1)
    requires Abs(total - target) == HalfUnit(1) ==> Abs(total) < Abs(target)
    ensures OnGrid(t, 1)
    ensures ValidDirection(direction) ==> Abs(t - direction as real * target) <= HalfUnit(1)
    ensures ValidDirection(direction) && Abs(t - direction as real * target) == HalfUnit(1) ==> Abs(t) < Abs(target)
  {
    GridLinear(total, 1, direction, 0);
    DirectionKeepsError(total, target, direction);
    total * direction as real
  }

  /** Multiplying a value and its target by the same direction keeps the distance between them. */
  lemma DirectionKeepsError(x: real, target: real, direction: int)
    requires Abs(x - target) <= HalfUnit(1)
    ensures ValidDirection(direction) ==>
              Abs(x * direction as real - direction as real * target) == Abs(x - target)
  {
    if direction == CLOCKWISE {
      assert x * direction as real - direction as real * target == -(x - target);
    }
  }

  /**
   * The algebraic sum calcSum starts from, rounded half away from zero to three
   * decimals; both addends have at most one decimal, so that rounding changes nothing.
   */
  function SignedSum(a: Angle, b: Angle): (t: real)
    ensures t == SignedSeconds(a) + SignedSeconds(b)
    ensures OnGrid(t, 1)
  {
    var exact := SignedSeconds(a) + SignedSeconds(b);
    GridAdd(SignedSeconds(a), SignedSeconds(b), 1);
    GridWidens(exact, 1, 3);
    RoundOnGrid(exact, 3);
    RoundHalfAway(exact, 3)
  }

  /**
   * What the three loops leave behind for a magnitude `t`: seconds and minutes
   * below 60, at most one round angle, nothing lost but whole turns, and a
   * positive magnitude never wrapped to zero.
   */
  predicate Normalised(t: real, degrees: int, minutes: int, seconds: real, turns: int) {
    var kept := (degrees * 3600 + minutes * 60) as real + seconds;
    0 <= degrees && 0 <= minutes < 60 && 0.0 <= seconds < 60.0 && turns >= 0
    && kept <= FULL_ANGLE as real && (t > 0.0 ==> kept > 0.0)
    && t == kept + (turns * FULL_ANGLE) as real
  }

  /** The loop-free reading of the normalisation: drop turns, then split with floor, div and mod. */
  function Normalise(t: real): (int, int, real)
    requires t >= 0.0
  {
    var turns := if t <= FULL_ANGLE as real then 0 else Ceil(t / FULL_ANGLE as real) - 1;
    var kept := t - (turns * FULL_ANGLE) as real;
    var totalMinutes := (kept / 60.0).Floor;
    (totalMinutes / 60, totalMinutes % 60, kept - (totalMinutes * 60) as real)
  }

  /** The turns the loop-free reading drops. */
  function TurnsOf(t: real): int {
    if t <= FULL_ANGLE as real then 0 else Ceil(t / FULL_ANGLE as real) - 1
  }

  /** The loop-free reading meets the description of the loops' result. */
  lemma NormaliseIsNormalised(t: real)
    requires t >= 0.0
    ensures var r := Normalise(t); Normalised(t, r.0, r.1, r.2, TurnsOf(t))
  {
    var turns := TurnsOf(t);
    var kept := t - (turns * FULL_ANGLE) as real;
    if t > FULL_ANGLE as real {
      var c := Ceil(t / FULL_ANGLE as real);
      assert c as real >= t / FULL_ANGLE as real && c as real - 1.0 < t / FULL_ANGLE as real;
      assert (c * FULL_ANGLE) as real >= t;
      assert ((c - 1) * FULL_ANGLE) as real < t;
      assert 0.0 < kept <= FULL_ANGLE as real;
    }
    var totalMinutes := (kept / 60.0).Floor;
    assert (totalMinutes * 60) as real <= kept < (totalMinutes * 60) as real + 60.0;
    assert (totalMinutes / 60) * 60 + totalMinutes % 60 == totalMinutes;
  }

  /** A whole number of turns strictly between minus one turn and one turn is zero. */
  lemma NoPartialTurn(k: int)
    requires -(FULL_ANGLE as real) < (k * FULL_ANGLE) as real < FULL_ANGLE as real
    ensures k == 0
  {
  }

  /** A whole number of minutes strictly between minus one minute and one minute is zero. */
  lemma NoPartialMinute(k: int)
    requires -60.0 < (k * 60) as real < 60.0
    ensures k == 0
  {
  }

  /** The description of the loops' result fixes degrees, minutes and seconds. */
  lemma NormalisedUnique(t: real, d1: int, m1: int, s1: real, k1: int, d2: int, m2: int, s2: real, k2: int)
    requires Normalised(t, d1, m1, s1, k1) && Normalised(t, d2, m2, s2, k2)
    ensures d1 == d2 && m1 == m2 && s1 == s2
  {
    var kept1 := (d1 * 3600 + m1 * 60) as real + s1;
    var kept2 := (d2 * 3600 + m2 * 60) as real + s2;
    assert kept1 - kept2 == ((k2 - k1) * FULL_ANGLE) as real;
    NoPartialTurn(k2 - k1);
    var u1, u2 := d1 * 60 + m1, d2 * 60 + m2;
    assert s2 - s1 == ((u1 - u2) * 60) as real;
    NoPartialMinute(u1 - u2);
  }

  /** checkOverflow: while the magnitude exceeds a round angle, take one turn off it. */
  method CheckOverflow(t: real) returns (temp: real, turns: nat)
    requires 0.0 <= t && OnGrid(t, 1)
    ensures 0.0 <= temp <= FULL_ANGLE as real && OnGrid(temp, 1)
    ensures t == temp + (turns * FULL_ANGLE) as real
    ensures t > 0.0 ==> temp > 0.0
  {
    temp, turns := t, 0;
    while temp > FULL_ANGLE as real
      invariant 0.0 <= temp && OnGrid(temp, 1)
      invariant t == temp + (turns * FULL_ANGLE) as real
      invariant t > 0.0 ==> temp > 0.0
      decreases temp.Floor
    {
      var next := temp - FULL_ANGLE as real;
      GridLinear(temp, 1, 1, -FULL_ANGLE);
      GridWidens(next, 1, 3);
      RoundOnGrid(next, 3);
      temp := RoundHalfTowardsZero(next, 3);
      turns := turns + 1;
    }
  }

  /** calcSeconds: while the seconds reach 60, take 60 off them and count a minute. */
  method CalcSeconds(kept: real) returns (seconds: real, totalMinutes: nat)
    requires 0.0 <= kept && OnGrid(kept, 1)
    ensures 0.0 <= seconds < MAX_SECONDS as real && OnGrid(seconds, 1)
    ensures kept == seconds + (totalMinutes * MAX_SECONDS) as real
  {
    seconds, totalMinutes := kept, 0;
    while seconds >= MAX_SECONDS as real
      invariant 0.0 <= seconds && OnGrid(seconds, 1)
      invariant kept == seconds + (totalMinutes * MAX_SECONDS) as real
      decreases seconds.Floor
    {
      var next := seconds - MAX_SECONDS as real;
      GridLinear(seconds, 1, 1, -MAX_SECONDS);
      GridWidens(next, 1, 3);
      RoundOnGrid(next, 3);
      seconds := RoundHalfTowardsZero(next, 3);
      totalMinutes := totalMinutes + 1;
    }
  }

  /** calcMinutes and calcDegrees: while the minutes reach 60, take 60 off them and count a degree. */
  method CalcMinutes(totalMinutes: nat) returns (degrees: nat, minutes: nat)
    ensures minutes < MAX_MINUTES
    ensures degrees * MAX_MINUTES + minutes == totalMinutes
  {
    degrees, minutes := 0, totalMinutes;
    while minutes >= MAX_MINUTES
      invariant degrees * MAX_MINUTES + minutes == totalMinutes
    {
      minutes := minutes - MAX_MINUTES;
      degrees := degrees + 1;
    }
  }

  /** calcSum without the final rounding: calcSign, checkOverflow, calcSeconds, calcMinutes, calcDegrees. */
  method CalcSum(a: Angle, b: Angle) returns (degrees: int, minutes: int, seconds: real, direction: int, turns: nat)
    ensures ValidDirection(direction)
    ensures direction == CLOCKWISE <==> SignedSum(a, b) < 0.0
    ensures Normalised(Abs(SignedSum(a, b)), degrees, minutes, seconds, turns)
    ensures OnGrid(seconds, 1) && degrees <= MAX_DEGREES
  {
    var temp := SignedSum(a, b);
    // calcSign
    direction := if temp >= 0.0 then COUNTER_CLOCKWISE else CLOCKWISE;
    GridAbs(temp, 1);
    temp := Abs(temp);
    var kept;
    kept, turns := CheckOverflow(temp);
    var totalMinutes;
    seconds, totalMinutes := CalcSeconds(kept);
    degrees, minutes := CalcMinutes(totalMinutes);
    CarryKeepsTotal(temp, kept, turns, seconds, totalMinutes, degrees, minutes);
  }

  /** The seconds and minutes carries lose nothing: what they leave still adds up to the magnitude. */
  lemma CarryKeepsTotal(t: real, kept: real, turns: nat, seconds: real, totalMinutes: nat, degrees: nat, minutes: nat)
    requires 0.0 <= kept <= FULL_ANGLE as real && t == kept + (turns * FULL_ANGLE) as real
    requires t > 0.0 ==> kept > 0.0
    requires 0.0 <= seconds < MAX_SECONDS as real && kept == seconds + (totalMinutes * MAX_SECONDS) as real
    requires minutes < MAX_MINUTES && degrees * MAX_MINUTES + minutes == totalMinutes
    ensures Normalised(t, degrees, minutes, seconds, turns)
    ensures degrees <= MAX_DEGREES
  {
    assert totalMinutes * MAX_SECONDS == degrees * 3600 + minutes * 60;
  }

  /** fetchData: calcSum, then the base fetch, which rounds the seconds to one decimal. */
  method FetchData(a: Angle, b: Angle) returns (f: Fetched)
    ensures ValidDirection(f.direction)
    ensures f.direction == CLOCKWISE <==> SignedSum(a, b) < 0.0
    ensures (f.degrees, f.minutes, f.seconds) == Normalise(Abs(SignedSum(a, b)))
    ensures 0 <= f.degrees <= MAX_DEGREES && 0 <= f.minutes < MAX_MINUTES
    ensures 0.0 <= f.seconds < MAX_SECONDS as real && OnGrid(f.seconds, 1)
    ensures f.provenance.None?
  {
    var degrees, minutes, seconds, direction, turns := CalcSum(a, b);
    f := BaseFetch(degrees, minutes, seconds, direction);
    var t := Abs(SignedSum(a, b));
    NormaliseIsNormalised(t);
    var r := Normalise(t);
    NormalisedUnique(t, degrees, minutes, seconds, turns, r.0, r.1, r.2, TurnsOf(t));
  }

  /** A full turn counts 1 296 000 seconds, signed by its direction. */
  lemma FullTurnSeconds(a: Angle)
    requires a.degrees == 360 && a.minutes == 0 && a.seconds == 0.0 && ValidDirection(a.direction)
    ensures SignedSeconds(a) == (a.direction * FULL_ANGLE) as real
  {
    var total := a.seconds + (a.minutes * 60) as real + (a.degrees * 3600) as real;
    assert total == 1296000.0;
    WholeOnGrid(total, 1);
    TotalSecondsExact(a, 1, total);
    assert SignedSeconds(a) == 1296000.0 * a.direction as real;
  }

  /** Two turns' worth of seconds normalise to one full turn. */
  lemma TwoTurnsNormalise(t: real)
    requires t == 2592000.0
    ensures Normalise(t) == (360, 0, 0.0)
  {
    assert Ceil(t / FULL_ANGLE as real) == 2;
  }

  /** Two full positive turns sum to one full turn counter-clockwise, two full negative ones to one clockwise. */
  lemma DoubleFullTurn(ccw: Angle, cw: Angle)
    requires ccw == Angle(360, 0, 0.0, COUNTER_CLOCKWISE) && cw == Angle(360, 0, 0.0, CLOCKWISE)
    ensures SignedSum(ccw, ccw) >= 0.0 && Normalise(Abs(SignedSum(ccw, ccw))) == (360, 0, 0.0)
    ensures SignedSum(cw, cw) < 0.0 && Normalise(Abs(SignedSum(cw, cw))) == (360, 0, 0.0)
  {
    FullTurnSeconds(ccw);
    FullTurnSeconds(cw);
    TwoTurnsNormalise(Abs(SignedSum(ccw, ccw)));
    TwoTurnsNormalise(Abs(SignedSum(cw, cw)));
  }

  /** Reversing both addends reverses the signed sum. */
  lemma ToggleBothNegates(a: Angle, b: Angle)
    ensures SignedSum(ToggleDirection(a), ToggleDirection(b)) == -SignedSum(a, b)
  {
    ToggleNegatesSeconds(a);
    ToggleNegatesSeconds(b);
  }

  /** Reversing an addend negates its signed total seconds. */
  lemma ToggleNegatesSeconds(a: Angle)
    ensures SignedSeconds(ToggleDirection(a)) == -SignedSeconds(a)
  {
    var total := ToTotalSeconds(a);
    var b := ToggleDirection(a);
    assert ToTotalSeconds(b) == total && Magnitude(b) == Magnitude(a);
    DirectedNegates(total, a.direction, Magnitude(a) * 3600.0);
  }

  /** The opposite direction gives the opposite directed value. */
  lemma DirectedNegates(total: real, direction: int, target: real)
    requires OnGrid(total, 1) && Abs(total - target) <= HalfUnit(1)
    requires Abs(total - target) == HalfUnit(1) ==> Abs(total) < Abs(target)
    ensures Directed(total, -direction, target) == -Directed(total, direction, target)
  {
    NegatedFactor(total, direction);
  }

  /** The sum does not depend on the order of the addends. */
  lemma SumCommutes(a: Angle, b: Angle)
    ensures SignedSum(a, b) == SignedSum(b, a)
  {
  }
}

=== FILE: from_decimal.dfy ===
/**
 * Building an angle from decimal degrees (src/Builders/FromDecimal.php):
 * truncate the magnitude to whole degrees, truncate sixty times the remainder
 * to whole minutes, and round what is left, in seconds, to a precision
 * derived from the number of decimals of the input.
 *
 * Angle::countDecimalPlaces is not part of this model; every function that
 * needs it takes it as the parameter `places`.
 */
module FromDecimal {
  import opened Wrappers
  import opened Exceptions
  import opened Rounding
  import opened Angles
  import opened Builder

  /** The builder after its constructor: the decimal and its capped decimal precision. */
  datatype State = State(decimal: real, decimalPrecision: nat)

  /** calcDecimalPrecision: the number of decimals, capped at PHP_FLOAT_DIG. */
  function DecimalPrecision(decimalPlaces: nat): (dp: nat)
    ensures dp <= PHP_FLOAT_DIG
    ensures decimalPlaces <= PHP_FLOAT_DIG ==> dp == decimalPlaces
    ensures decimalPlaces > PHP_FLOAT_DIG ==> dp == PHP_FLOAT_DIG
  {
    if decimalPlaces > PHP_FLOAT_DIG then PHP_FLOAT_DIG else decimalPlaces
  }

  /** getSecondsPrecision: six more decimals than the input, capped at PHP_FLOAT_DIG. */
  function SecondsPrecision(decimalPrecision: nat): (sp: nat)
    ensures sp <= PHP_FLOAT_DIG
    ensures decimalPrecision <= sp || sp == PHP_FLOAT_DIG
    ensures decimalPrecision + 6 <= PHP_FLOAT_DIG ==> sp == decimalPrecision + 6
  {
    var precision := decimalPrecision + 6;
    if precision > PHP_FLOAT_DIG then PHP_FLOAT_DIG else precision
  }

  /** The constructor: record the precision, then reject magnitudes above 360. */
  function New(decimal: real, places: real -> nat): (r: Result<State, Error>)
    ensures r.Err? <==> decimal > 360.0 || decimal < -360.0
    ensures r.Err? ==> r.error == Overflow
    ensures r.Ok? ==> r.value.decimal == decimal
    ensures r.Ok? ==> r.value.decimalPrecision <= PHP_FLOAT_DIG
  {
    var b := State(decimal, DecimalPrecision(places(decimal)));
    if Abs(b.decimal) > MAX_DEGREES as real then Err(Overflow) else Ok(b)
  }

  /** Degrees, minutes and the remainder (in degrees) that calcSeconds turns into seconds. */
  datatype Decomposition = Decomposition(degrees: int, minutes: int, remainder: real)

  /** calcDegrees then calcMinutes: the two truncations, without any rounding yet. */
  function Decompose(decimal: real): (d: Decomposition)
    ensures 0 <= d.degrees && d.degrees as real <= Abs(decimal) < d.degrees as real + 1.0
    ensures 0 <= d.minutes <= 59
    ensures 0.0 <= d.remainder < 1.0 / 60.0
    ensures d.degrees as real + d.minutes as real / 60.0 + d.remainder == Abs(decimal)
  {
    var degrees := Trunc(Abs(decimal));
    var reminder := Abs(decimal) - degrees as real;
    var minutes := Trunc(reminder * 60.0);
    Decomposition(degrees, minutes, Abs(reminder - minutes as real / 60.0))
  }

  /** fetchData: the decomposition, seconds rounded half towards zero, the sign, and the provenance slots. */
  function FetchData(b: State): (f: Fetched)
    ensures f.degrees == Decompose(b.decimal).degrees && f.minutes == Decompose(b.decimal).minutes
    ensures 0.0 <= f.seconds <= 60.0
    ensures OnGrid(f.seconds, SecondsPrecision(b.decimalPrecision))
    ensures Abs(f.seconds - Decompose(b.decimal).remainder * 3600.0)
         <= HalfUnit(SecondsPrecision(b.decimalPrecision))
    ensures Abs(f.seconds - Decompose(b.decimal).remainder * 3600.0) == HalfUnit(SecondsPrecision(b.decimalPrecision)) ==>
              f.seconds < Decompose(b.decimal).remainder * 3600.0
    ensures ValidDirection(f.direction)
    ensures f.direction == CLOCKWISE <==> b.decimal < 0.0
    ensures f.provenance == Some(Provenance(Some(b.decimalPrecision), Some(b.decimal),
                                            Some(SecondsPrecision(b.decimalPrecision)), None, None))
  {
    var d := Decompose(b.decimal);
    var sp := SecondsPrecision(b.decimalPrecision);
    var exact := d.remainder * 60.0 * 60.0;
    var seconds := RoundHalfTowardsZero(exact, sp);
    SecondsAtMostSixty(exact, sp);
    var direction := if b.decimal < 0.0 then CLOCKWISE else DEFAULT_DIRECTION;
    Fetched(d.degrees, d.minutes, seconds, direction,
            Some(Provenance(Some(b.decimalPrecision), Some(b.decimal), Some(sp), None, None)))
  }

  /** Rounding seconds below 60 to a non-negative precision never goes past 60. */
  lemma SecondsAtMostSixty(exact: real, sp: nat)
    requires 0.0 <= exact < 60.0
    ensures RoundHalfTowardsZero(exact, sp) <= 60.0
  {
    WholeOnGrid(60.0, sp);
    RoundBelowGrid(exact, 60.0, sp);
  }

  /** Angle::createFromDecimal. */
  function CreateFromDecimal(decimal: real, places: real -> nat): (r: Result<Angle, Error>)
    ensures r.Err? <==> Abs(decimal) > 360.0
    ensures r.Err? ==> r.error == Overflow
    ensures r.Ok? ==> 0 <= r.value.degrees <= 360 && 0 <= r.value.minutes <= 59
    ensures r.Ok? ==> 0.0 <= r.value.seconds <= 60.0
    ensures r.Ok? ==> (r.value.direction == CLOCKWISE <==> decimal < 0.0)
  {
    match New(decimal, places)
    case Err(e) => Err(e)
    case Ok(b) => Ok(AngleOf(FetchData(b)))
  }

  /**
   * When the decimal has at most the counted number of decimals, and that
   * count is within PHP_FLOAT_DIG, no seconds rounding happens: the angle's
   * magnitude is exactly |x|, and toDecimal gives x back at every precision.
   */
  lemma ToDecimalRecovers(decimal: real, places: real -> nat, precision: int)
    requires Abs(decimal) <= 360.0
    requires places(decimal) <= PHP_FLOAT_DIG && OnGrid(decimal, places(decimal))
    ensures var a := CreateFromDecimal(decimal, places).value;
            Magnitude(a) == Abs(decimal) &&
            ToDecimal(a, precision) == RoundHalfTowardsZero(decimal, precision)
  {
    var b := New(decimal, places).value;
    var d := Decompose(decimal);
    var dp: nat := places(decimal);
    var sp := SecondsPrecision(dp);
    var exact := d.remainder * 3600.0;
    ExactSecondsOnGrid(decimal, dp, d);
    GridWidens(exact, dp, sp);
    RoundOnGrid(exact, sp);
    var a := CreateFromDecimal(decimal, places).value;
    assert a.seconds == exact;
    MagnitudeOfParts(a, d, Abs(decimal));
    SignedMagnitude(a, decimal, precision);
  }

  /** An angle holding the decomposition's parts, seconds unrounded, has the decomposed magnitude. */
  lemma MagnitudeOfParts(a: Angle, d: Decomposition, m: real)
    requires a.degrees == d.degrees && a.minutes == d.minutes && a.seconds == d.remainder * 3600.0
    requires d.degrees as real + d.minutes as real / 60.0 + d.remainder == m
    ensures Magnitude(a) == m
  {
    assert a.seconds / 3600.0 == d.remainder;
  }

  /** An angle of magnitude |x|, clockwise exactly when x < 0, reads back as x rounded. */
  lemma SignedMagnitude(a: Angle, x: real, precision: int)
    requires Magnitude(a) == Abs(x) && ValidDirection(a.direction)
    requires a.direction == CLOCKWISE <==> x < 0.0
    ensures ToDecimal(a, precision) == RoundHalfTowardsZero(x, precision)
  {
    if x < 0.0 {
      RoundOdd(x, precision);
      assert ToDecimal(a, precision) == -RoundHalfTowardsZero(-x, precision);
    } else {
      assert ToDecimal(a, precision) == RoundHalfTowardsZero(x, precision) * 1.0;
    }
  }

  /** The unrounded seconds have no more decimals than the decimal degrees they come from. */
  lemma ExactSecondsOnGrid(decimal: real, p: nat, d: Decomposition)
    requires OnGrid(decimal, p)
    requires d == Decompose(decimal)
    ensures OnGrid(d.remainder * 3600.0, p)
  {
    var sign := if decimal < 0.0 then -1 else 1;
    GridLinear(decimal, p, sign, 0);
    assert Abs(decimal) == decimal * sign as real + 0 as real;
    var k := -(3600 * d.degrees + 60 * d.minutes);
    GridLinear(Abs(decimal), p, 3600, k);
    assert d.remainder * 3600.0 == Abs(decimal) * 3600 as real + k as real;
  }

  /** 360 and -360 are accepted; the smallest excess is rejected. */
  lemma OverflowBoundary(places: real -> nat)
    ensures New(360.0, places).Ok? && New(-360.0, places).Ok?
    ensures New(360.00001, places) == Err(Overflow)
    ensures New(-360.00001, places) == Err(Overflow)
  {
  }

  /** The null decimal gives a counter-clockwise angle whose decimal value is zero. */
  lemma ZeroDecimal(places: real -> nat)
    ensures var a := CreateFromDecimal(0.0, places).value;
            IsCounterClockwise(a) && ToDecimal(a) == 0.0
  {
    WholeDecimal(0, places);
    var a := Angle(0, 0, 0.0, COUNTER_CLOCKWISE);
    assert Magnitude(a) == 0.0;
    RoundOnGrid(0.0, 1);
    assert ToDecimal(a) == 0.0 * 1.0;
  }

  /** A whole number of degrees up to 360 gives exactly that many degrees, counter-clockwise. */
  lemma WholeDecimal(n: nat, places: real -> nat)
    requires n <= 360
    ensures CreateFromDecimal(n as real, places) == Ok(Angle(n, 0, 0.0, COUNTER_CLOCKWISE))
  {
    assert Decompose(n as real) == Decomposition(n, 0, 0.0);
    var b := New(n as real, places).value;
    RoundOnGrid(0.0, SecondsPrecision(b.decimalPrecision));
  }
}

=== FILE: from_degrees.dfy ===
/**
 * Building an angle from degrees, minutes, seconds and a direction
 * (src/Builders/FromDegrees.php). The constructor validates upper bounds,
 * corrects the direction and makes a null angle counter-clockwise; the
 * calc steps do nothing, so fetchData is the base one.
 */
module FromDegrees {
  import opened Wrappers
  import opened Exceptions
  import opened Rounding
  import opened Angles
  import opened Builder

  /** The builder's fields once the constructor has validated them. */
  datatype State = State(degrees: int, minutes: int, seconds: real, direction: int)

  /** valuesExceedsMaximumAllowed: only upper bounds, with seconds compared to round(59.9, 1). */
  function ValuesExceedMaximumAllowed(degrees: int, minutes: int, seconds: real): (r: bool)
    ensures r <==> degrees > 360 || minutes > 59 || seconds > 59.9
  {
    var maxSeconds := RoundHalfTowardsZero(MAX_SECONDS as real - 0.1, 1);
    MaxSecondsValue();
    degrees > MAX_DEGREES || minutes > MAX_MINUTES - 1 || seconds > maxSeconds
  }

  /** The seconds bound is already on the one-decimal grid, so rounding keeps it. */
  lemma MaxSecondsValue()
    ensures RoundHalfTowardsZero(MAX_SECONDS as real - 0.1, 1) == 59.9
  {
    assert 59.9 * Scale(1) == 599.0;
    assert OnGrid(59.9, 1);
    RoundOnGrid(59.9, 1);
  }

  /** correctDirection: any negative integer means clockwise, anything else counter-clockwise. */
  function CorrectDirection(direction: int): (r: int)
    ensures ValidDirection(r)
    ensures r == CLOCKWISE <==> direction < 0
  {
    if direction < 0 then CLOCKWISE else COUNTER_CLOCKWISE
  }

  /** isNullAngle: every component is zero (the seconds as given, not as they will be fetched). */
  predicate IsNullAngle(degrees: int, minutes: int, seconds: real) {
    degrees == 0 && minutes == 0 && seconds == 0.0
  }

  /** The constructor: validate, then correct the direction, then canonicalise a null angle. */
  function New(degrees: int, minutes: int, seconds: real, direction: int := COUNTER_CLOCKWISE)
    : (r: Result<State, Error>)
    ensures r.Err? <==> degrees > 360 || minutes > 59 || seconds > 59.9
    ensures r.Err? ==> r.error == Overflow
    ensures r.Ok? ==> r.value.degrees == degrees && r.value.minutes == minutes
    ensures r.Ok? ==> r.value.seconds == seconds
    ensures r.Ok? ==> ValidDirection(r.value.direction)
    ensures r.Ok? ==> (r.value.direction == CLOCKWISE <==>
                       direction < 0 && !(degrees == 0 && minutes == 0 && seconds == 0.0))
  {
    if ValuesExceedMaximumAllowed(degrees, minutes, seconds) then
      Err(Overflow)
    else
      var corrected := CorrectDirection(direction);
      var canonical := if IsNullAngle(degrees, minutes, seconds) then COUNTER_CLOCKWISE else corrected;
      Ok(State(degrees, minutes, seconds, canonical))
  }

  /** fetchData is inherited from AngleBuilder: the fields, seconds to one decimal. */
  function FetchData(b: State): (f: Fetched)
    ensures f.degrees == b.degrees && f.minutes == b.minutes && f.direction == b.direction
    ensures OnGrid(f.seconds, 1) && Abs(f.seconds - b.seconds) <= HalfUnit(1)
    ensures Abs(f.seconds - b.seconds) == HalfUnit(1) ==> Abs(f.seconds) > Abs(b.seconds)
    ensures f.provenance.None?
  {
    BaseFetch(b.degrees, b.minutes, b.seconds, b.direction)
  }

  /** Angle::createFromValues: the constructor's error, or the angle made from the fetched data. */
  function CreateFromValues(degrees: int := 0, minutes: int := 0, seconds: real := 0.0,
                            direction: int := COUNTER_CLOCKWISE): (r: Result<Angle, Error>)
    ensures r.Err? <==> degrees > 360 || minutes > 59 || seconds > 59.9
    ensures r.Err? ==> r.error == Overflow
    ensures r.Ok? ==> r.value.degrees == degrees && r.value.minutes == minutes
    ensures r.Ok? ==> OnGrid(r.value.seconds, 1) && Abs(r.value.seconds - seconds) <= HalfUnit(1)
    ensures r.Ok? && Abs(r.value.seconds - seconds) == HalfUnit(1) ==> Abs(r.value.seconds) > Abs(seconds)
    ensures r.Ok? ==> ValidDirection(r.value.direction)
    ensures r.Ok? ==> (r.value.direction == CLOCKWISE <==>
                       direction < 0 && !(degrees == 0 && minutes == 0 && seconds == 0.0))
  {
    match New(degrees, minutes, seconds, direction)
    case Err(e) => Err(e)
    case Ok(b) => Ok(AngleOf(FetchData(b)))
  }

  /** 360° is the largest accepted angle; 361°, 60' and 60" are each rejected. */
  lemma BoundaryInputs()
    ensures New(360, 0, 0.0).Ok?
    ensures New(0, 59, 59.9).Ok?
    ensures New(361, 0, 0.0) == Err(Overflow)
    ensures New(0, 60, 0.0) == Err(Overflow)
    ensures New(0, 0, 60.0) == Err(Overflow)
    ensures New(0, 0, 59.95) == Err(Overflow)
  {
  }

  /** Negative components are not checked: they reach the angle unchanged. */
  lemma NegativeInputsPass(degrees: int, minutes: int, seconds: real, direction: int)
    requires degrees <= 0 && minutes <= 0 && seconds <= 0.0
    ensures New(degrees, minutes, seconds, direction).Ok?
    ensures New(degrees, minutes, seconds, direction).value.degrees == degrees
  {
  }

  /** A null angle is counter-clockwise whatever direction is requested. */
  lemma NullAngleCounterClockwise(direction: int)
    ensures New(0, 0, 0.0, direction) == Ok(State(0, 0, 0.0, COUNTER_CLOCKWISE))
  {
  }

  /** With whole seconds, getDegrees gives back the inputs with the sign on the degrees only. */
  lemma GetDegreesOfCreated(degrees: int, minutes: int, seconds: real, direction: int)
    requires degrees <= 360 && minutes <= 59 && seconds <= 59.9
    requires seconds.Floor as real == seconds
    requires degrees != 0 || minutes != 0 || seconds != 0.0
    ensures CreateFromValues(degrees, minutes, seconds, direction).Ok?
    ensures var a := CreateFromValues(degrees, minutes, seconds, direction).value;
            Entries(GetDegrees(a)) == (degrees * CorrectDirection(direction), minutes, seconds)
  {
    WholeOnGrid(seconds, 1);
  }

  /**
   * As written, the null check looks at the seconds before fetchData rounds
   * them: 0.04" passes as a non-null angle, keeps the clockwise direction,
   * and is then fetched as 0.0", giving a clockwise null angle.
   */
  lemma NullCheckBeforeRounding()
    ensures CreateFromValues(0, 0, 0.04, CLOCKWISE) == Ok(Angle(0, 0, 0.0, CLOCKWISE))
  {
    var s := RoundHalfAway(0.04, 1);
    assert Abs(s - 0.04) <= 0.05 && OnGrid(s, 1);
    assert s == 0.0 by {
      if s != 0.0 {
        if s > 0.0 { GridGap(0.0, s, 1); } else { GridGap(s, 0.0, 1); }
      }
    }
  }

  /** The null check made on the seconds as they will be fetched. */
  function NewCorrected(degrees: int, minutes: int, seconds: real, direction: int := COUNTER_CLOCKWISE)
    : (r: Result<State, Error>)
    ensures r.Err? <==> degrees > 360 || minutes > 59 || seconds > 59.9
    ensures r.Err? ==> r.error == Overflow
    ensures r.Ok? ==> r.value.degrees == degrees && r.value.minutes == minutes
    ensures r.Ok? ==> r.value.seconds == seconds
    ensures r.Ok? ==> ValidDirection(r.value.direction)
    ensures r.Ok? ==> (r.value.direction == CLOCKWISE <==>
                       direction < 0 && !(degrees == 0 && minutes == 0 && RoundHalfAway(seconds, 1) == 0.0))
  {
    if ValuesExceedMaximumAllowed(degrees, minutes, seconds) then
      Err(Overflow)
    else
      var corrected := CorrectDirection(direction);
      var nullAngle := IsNullAngle(degrees, minutes, RoundHalfAway(seconds, 1));
      Ok(State(degrees, minutes, seconds, if nullAngle then COUNTER_CLOCKWISE else corrected))
  }

  /** With the corrected check every angle that is fetched as 0°0'0" is counter-clockwise. */
  lemma NullAnglesAreCounterClockwise(degrees: int, minutes: int, seconds: real, direction: int)
    requires NewCorrected(degrees, minutes, seconds, direction).Ok?
    ensures var f := FetchData(NewCorrected(degrees, minutes, seconds, direction).value);
            f.degrees == 0 && f.minutes == 0 && f.seconds == 0.0 ==> f.direction == COUNTER_CLOCKWISE
  {
  }

  /** The correction only matters for seconds that round to zero: elsewhere both builders agree. */
  lemma CorrectionAgrees(degrees: int, minutes: int, seconds: real, direction: int)
    requires OnGrid(seconds, 1)
    ensures NewCorrected(degrees, minutes, seconds, direction) == New(degrees, minutes, seconds, direction)
  {
    RoundOnGrid(seconds, 1);
  }
}

=== FILE: from_radian.dfy ===
/**
 * Building an angle from radians (src/Builders/FromRadian.php): reject
 * magnitudes above 2π, then convert with rad2deg and hand everything to the
 * decimal builder.
 */
module FromRadian {
  import opened Wrappers
  import opened Exceptions
  import opened Rounding
  import opened Angles
  import opened Builder
  import FromDecimal

  /** The builder after its constructor: the radian value it was given. */
  datatype State = State(radian: real)

  /** The constructor: the overflow check against MAX_RADIAN runs before anything else. */
  function New(radian: real): (r: Result<State, Error>)
    ensures r.Err? <==> radian > MAX_RADIAN || radian < -MAX_RADIAN
    ensures r.Err? ==> r.error == Overflow
    ensures r.Ok? ==> r.value.radian == radian
  {
    if Abs(radian) > MAX_RADIAN then Err(Overflow) else Ok(State(radian))
  }

  /** PHP's rad2deg: divide by M_PI, then multiply by 180. */
  function Rad2Deg(radian: real): (degrees: real)
    ensures degrees * M_PI == radian * 180.0
    ensures degrees < 0.0 <==> radian < 0.0
    ensures Abs(degrees) <= 360.0 <==> Abs(radian) <= MAX_RADIAN
  {
    var degrees := (radian / M_PI) * 180.0;
    assert Abs(degrees) == (Abs(radian) / M_PI) * 180.0;
    degrees
  }

  /** fetchData: whatever a decimal builder for rad2deg(radian) fetches. */
  function FetchData(b: State, places: real -> nat): (r: Result<Fetched, Error>)
    ensures Abs(b.radian) <= MAX_RADIAN ==> r.Ok?
    ensures r.Ok? ==> (r.value.direction == CLOCKWISE <==> b.radian < 0.0)
    ensures r.Ok? ==> r.value.provenance.Some? && r.value.provenance.value.originalRadian.None?
  {
    match FromDecimal.New(Rad2Deg(b.radian), places)
    case Err(e) => Err(e)
    case Ok(d) => Ok(FromDecimal.FetchData(d))
  }

  /** Angle::createFromRadian. */
  function CreateFromRadian(radian: real, places: real -> nat): (r: Result<Angle, Error>)
    ensures r.Err? <==> Abs(radian) > MAX_RADIAN
    ensures r.Err? ==> r.error == Overflow
    ensures r.Ok? ==> (r.value.direction == CLOCKWISE <==> radian < 0.0)
    ensures r.Ok? ==> 0 <= r.value.degrees <= 360 && 0 <= r.value.minutes <= 59
  {
    match New(radian)
    case Err(e) => Err(e)
    case Ok(b) =>
      match FetchData(b, places)
      case Err(e) => Err(e)
      case Ok(f) => Ok(AngleOf(f))
  }

  /** Building from radians is building from the converted decimal degrees. */
  lemma RadianIsDecimal(radian: real, places: real -> nat)
    requires Abs(radian) <= MAX_RADIAN
    ensures CreateFromRadian(radian, places) == FromDecimal.CreateFromDecimal(Rad2Deg(radian), places)
  {
  }

  /** A full turn of 2π radians is accepted and is exactly 360°. */
  lemma FullTurn(places: real -> nat)
    ensures var r := CreateFromRadian(MAX_RADIAN, places);
            r.Ok? && r.value.degrees == 360 && r.value.minutes == 0 && r.value.seconds == 0.0
            && IsCounterClockwise(r.value)
  {
    assert Rad2Deg(MAX_RADIAN) == 360.0;
    RadianIsDecimal(MAX_RADIAN, places);
    FromDecimal.WholeDecimal(360, places);
  }
}

=== FILE: from_string.dfy ===
/**
 * Building an angle from its text (src/Builders/FromString.php): the
 * constructor runs the three token regexes and refuses the string unless all
 * three match; fetchData turns the captured groups into values, taking the
 * direction from the integer value of the degrees group.
 */
module FromString {
  import opened Wrappers
  import opened Exceptions
  import opened Rounding
  import opened Angles
  import opened Builder
  import opened Text
  import opened Tokens

  /** The builder after its constructor: the three captured groups. */
  datatype State = State(degreesToken: seq<char>, minutesToken: seq<char>, secondsToken: seq<char>)

  /** A degrees group: an optional minus, then one of the digit alternatives. */
  predicate DegreesToken(g: seq<char>) {
    (|g| > 0 && g[0] == '-' && DegreesDigits(g[1..])) || DegreesDigits(g)
  }

  /** Groups the three regexes can capture. */
  predicate ValidState(b: State) {
    DegreesToken(b.degreesToken) && MinutesDigits(b.minutesToken) && SecondsDigits(b.secondsToken)
  }

  /** The constructor: parse the three tokens, then refuse the string if any regex found nothing. */
  function New(s: seq<char>): (r: Result<State, Error>)
    ensures r.Err? <==> ((forall g :: !DegreesMatch(s, g))
                         || (forall j: nat, g :: !MinutesMatchAt(s, j, g))
                         || (forall j: nat, g :: !SecondsMatchAt(s, j, g)))
    ensures r.Err? ==> r.error == NoMatch
    ensures r.Ok? ==> ValidState(r.value)
    ensures r.Ok? ==> DegreesMatch(s, r.value.degreesToken)
    ensures r.Ok? ==> LeftmostMinutes(s, r.value.minutesToken) && LeftmostSeconds(s, r.value.secondsToken)
  {
    var degrees := MatchDegrees(s);
    var minutes := MatchMinutes(s);
    var seconds := MatchSeconds(s);
    if degrees.None? || minutes.None? || seconds.None? then
      Err(NoMatch)
    else
      assert MinutesMatchAt(s, minutes.value.0, minutes.value.1);
      assert SecondsMatchAt(s, seconds.value.0, seconds.value.1);
      Ok(State(degrees.value, minutes.value.1, seconds.value.1))
  }

  /** calcSign: counter-clockwise exactly when the degrees group's integer value is not negative. */
  function Sign(degreesToken: seq<char>): (direction: int)
    ensures ValidDirection(direction)
    ensures direction == CLOCKWISE <==> SignedValue(degreesToken) < 0
  {
    if SignedValue(degreesToken) >= 0 then COUNTER_CLOCKWISE else CLOCKWISE
  }

  /** The value of a degrees group lies between -360 and 360; its magnitude is the digits' value. */
  lemma DegreesTokenValue(g: seq<char>)
    requires DegreesToken(g)
    ensures -360 <= SignedValue(g) <= 360
    ensures var digits := if g[0] == '-' then g[1..] else g;
            AbsInt(SignedValue(g)) == DigitsValue(digits)
  {
    if g[0] == '-' {
      assert !DegreesDigits(g);
      DegreesDigitsValue(g[1..]);
    } else {
      DegreesDigitsValue(g);
    }
  }

  /** Each alternative of the degrees regex is worth 0 to 360. */
  lemma DegreesDigitsValue(t: seq<char>)
    requires DegreesDigits(t)
    ensures 0 <= DigitsValue(t) <= 360
  {
    DigitsValueShort(t);
  }

  /** A minutes group is worth 0 to 59. */
  lemma MinutesTokenValue(g: seq<char>)
    requires MinutesDigits(g)
    ensures 0 <= DigitsValue(g) <= 59
  {
    DigitsValueShort(g);
  }

  /** A seconds group is a value with at most one decimal. */
  lemma SecondsTokenOnGrid(g: seq<char>)
    requires SecondsDigits(g)
    ensures OnGrid(SecondsValue(g), 1)
  {
    var whole := if |g| >= 3 && g[|g| - 2] == '.' then g[..|g| - 2] else g;
    var tenths := if |g| >= 3 && g[|g| - 2] == '.' then DigitValue(g[|g| - 1]) else 0;
    assert SecondsValue(g) * Scale(1) == (DigitsValue(whole) * 10 + tenths) as real;
  }

  /** fetchData: |int(degrees)|, int(minutes), the seconds group as a number, the sign, and the provenance. */
  function FetchData(b: State, places: real -> nat): (f: Fetched)
    requires ValidState(b)
    ensures 0 <= f.degrees <= 360 && f.degrees == AbsInt(SignedValue(b.degreesToken))
    ensures 0 <= f.minutes <= 59 && f.minutes == DigitsValue(b.minutesToken)
    ensures 0.0 <= f.seconds < 60.0 && OnGrid(f.seconds, 1)
    ensures f.direction == CLOCKWISE <==> SignedValue(b.degreesToken) < 0
    ensures ValidDirection(f.direction)
    ensures f.provenance == Some(Provenance(None, None, Some(places(f.seconds)), None, None))
  {
    DegreesTokenValue(b.degreesToken);
    MinutesTokenValue(b.minutesToken);
    SecondsTokenOnGrid(b.secondsToken);
    var seconds := SecondsValue(b.secondsToken);
    Fetched(AbsInt(SignedValue(b.degreesToken)), DigitsValue(b.minutesToken), seconds,
            Sign(b.degreesToken), Some(Provenance(None, None, Some(places(seconds)), None, None)))
  }

  /** Angle::createFromString. */
  function CreateFromString(s: seq<char>, places: real -> nat): (r: Result<Angle, Error>)
    ensures r.Err? <==> New(s).Err?
    ensures r.Err? ==> r.error == NoMatch
    ensures r.Ok? ==> 0 <= r.value.degrees <= 360 && 0 <= r.value.minutes <= 59
    ensures r.Ok? ==> 0.0 <= r.value.seconds < 60.0 && OnGrid(r.value.seconds, 1)
    ensures r.Ok? ==> ValidDirection(r.value.direction)
  {
    match New(s)
    case Err(e) => Err(e)
    case Ok(b) => Ok(AngleOf(FetchData(b, places)))
  }

  /** Each of the three refused strings fails in the constructor. */
  lemma RejectedStrings(s1: seq<char>, s2: seq<char>, s3: seq<char>)
    requires s1 == "361° 0' 0\"" && s2 == "0° 60' 0\"" && s3 == "0° 0' 60\""
    ensures New(s1) == Err(NoMatch) && New(s2) == Err(NoMatch) && New(s3) == Err(NoMatch)
  {
    RejectedDegrees(s1);
    RejectedMinutes();
    RejectedSeconds();
  }

  /** The sign rule as written: "-0" is the integer 0, so a "-0°" group is counter-clockwise. */
  lemma MinusZeroIsCounterClockwise(places: real -> nat)
    ensures FetchData(State("-0", "30", "0"), places).direction == COUNTER_CLOCKWISE
  {
    assert DigitsValue("0") == 0;
  }

  /** The direction rule the text evidently means: clockwise exactly when the group begins with '-'. */
  function SignCorrected(degreesToken: seq<char>): (direction: int)
    ensures ValidDirection(direction)
    ensures direction == CLOCKWISE <==> |degreesToken| > 0 && degreesToken[0] == '-'
  {
    if |degreesToken| > 0 && degreesToken[0] == '-' then CLOCKWISE else COUNTER_CLOCKWISE
  }

  /** fetchData with the corrected direction rule. */
  function FetchDataCorrected(b: State, places: real -> nat): (f: Fetched)
    requires ValidState(b)
    ensures f.direction == CLOCKWISE <==> b.degreesToken[0] == '-'
    ensures f.degrees == FetchData(b, places).degrees && f.minutes == FetchData(b, places).minutes
    ensures f.seconds == FetchData(b, places).seconds
  {
    FetchData(b, places).(direction := SignCorrected(b.degreesToken))
  }

  /** Angle::createFromString with the corrected direction rule. */
  function CreateFromStringCorrected(s: seq<char>, places: real -> nat): (r: Result<Angle, Error>)
    ensures r.Err? <==> New(s).Err?
    ensures r.Ok? ==> ValidDirection(r.value.direction)
  {
    match New(s)
    case Err(e) => Err(e)
    case Ok(b) => Ok(AngleOf(FetchDataCorrected(b, places)))
  }

  /** The two direction rules disagree only on a degrees group of "-0" or "-00". */
  lemma SignRulesAgree(g: seq<char>)
    requires DegreesToken(g)
    ensures Sign(g) != SignCorrected(g) <==> g[0] == '-' && DigitsValue(g[1..]) == 0
  {
    DegreesTokenValue(g);
  }
}

=== FILE: numeric.dfy ===
/**
 * PHP 8's numeric strings, which is_numeric accepts and abs() converts:
 * optional whitespace, an optional sign, digits with at most one decimal
 * point, an optional exponent, optional trailing whitespace. The comparison
 * methods of src/Angle.php test every operand with is_numeric first.
 */
module Numeric {
  import opened Wrappers
  import opened Rounding
  import opened Text
  import opened Tokens

  /** The whitespace PHP allows around a numeric string: space, tab, newline, carriage return, vertical tab, form feed. */
  predicate IsWhitespace(c: char) {
    c == ' ' || c == '\t' || c == '\n' || c == '\r' || c == '\U{B}' || c == '\U{C}'
  }

  /** The characters a numeric string can contain at all. */
  predicate NumericChar(c: char) {
    IsDigit(c) || IsWhitespace(c) || c == '+' || c == '-' || c == '.' || c == 'e' || c == 'E'
  }

  /** The length of the run of whitespace that starts at `i`. */
  function WhitespaceRun(s: seq<char>, i: nat): (n: nat)
    requires i <= |s|
    ensures i + n <= |s|
    ensures i + n == |s| || !IsWhitespace(s[i + n])
    decreases |s| - i
  {
    if i < |s| && IsWhitespace(s[i]) then 1 + WhitespaceRun(s, i + 1) else 0
  }

  /** Every character of a whitespace run is whitespace. */
  lemma {:induction false} WhitespaceRunChars(s: seq<char>, i: nat)
    requires i <= |s|
    ensures forall k :: i <= k < i + WhitespaceRun(s, i) ==> IsWhitespace(s[k])
    decreases |s| - i
  {
    if i < |s| && IsWhitespace(s[i]) {
      WhitespaceRunChars(s, i + 1);
    }
  }

  /** An optional exponent at `i`: 'e' or 'E', an optional sign and at least one digit; its length and value. */
  function Exponent(s: seq<char>, i: nat): (r: (nat, int))
    requires i <= |s|
    ensures i + r.0 <= |s|
    ensures r.0 == 0 ==> r.1 == 0
  {
    if i < |s| && (s[i] == 'e' || s[i] == 'E') then
      var j := if i + 1 < |s| && (s[i + 1] == '+' || s[i + 1] == '-') then i + 2 else i + 1;
      var n := DigitRun(s, j);
      if n == 0 then (0, 0)
      else
        var value := DigitsValue(s[j..j + n]);
        (j - i + n, if s[i + 1] == '-' then -value else value)
    else (0, 0)
  }

  /** An exponent consists of numeric-string characters. */
  lemma ExponentChars(s: seq<char>, i: nat)
    requires i <= |s|
    ensures forall k :: i <= k < i + Exponent(s, i).0 ==> NumericChar(s[k])
  {
    if i < |s| && (s[i] == 'e' || s[i] == 'E') {
      var j := if i + 1 < |s| && (s[i + 1] == '+' || s[i + 1] == '-') then i + 2 else i + 1;
      DigitRunChars(s, j);
    }
  }

  /**
   * Where the parts of a candidate numeric string lie: the sign is before
   * `start`, the whole digits in [start, wholeEnd), the point (if any) in
   * [wholeEnd, fractionStart), the fraction digits in [fractionStart,
   * fractionEnd), the exponent in [fractionEnd, exponentEnd) and the
   * trailing whitespace in [exponentEnd, end).
   */
  datatype Layout = Layout(
    negative: bool, start: nat, wholeEnd: nat, fractionStart: nat, fractionEnd: nat,
    exponent: int, exponentEnd: nat, end: nat)

  /** Reads the parts of a candidate numeric string from left to right. */
  function Scan(s: seq<char>): (l: Layout)
    ensures l.start <= l.wholeEnd <= l.fractionStart <= l.fractionEnd <= l.exponentEnd <= l.end <= |s|
    ensures l.fractionStart <= l.wholeEnd + 1
    ensures l.exponentEnd == l.fractionEnd ==> l.exponent == 0
  {
    var lead := Lead(s);
    var wholeEnd := lead.1 + DigitRun(s, lead.1);
    var point := wholeEnd < |s| && s[wholeEnd] == '.';
    var fractionStart := if point then wholeEnd + 1 else wholeEnd;
    var fractionEnd := if point then fractionStart + DigitRun(s, fractionStart) else fractionStart;
    var exponent := Exponent(s, fractionEnd);
    var exponentEnd := fractionEnd + exponent.0;
    Layout(lead.0, lead.1, wholeEnd, fractionStart, fractionEnd, exponent.1, exponentEnd,
           exponentEnd + WhitespaceRun(s, exponentEnd))
  }

  /** The sign and whitespace before the digits are numeric-string characters. */
  lemma ScanLeadChars(s: seq<char>)
    ensures forall k :: 0 <= k < Scan(s).start ==> NumericChar(s[k])
  {
    LeadChars(s);
  }

  /** The whole part is digits, then comes at most a point, then the fraction is digits. */
  lemma ScanMantissaChars(s: seq<char>)
    ensures var l := Scan(s);
            forall k :: l.start <= k < l.wholeEnd ==> IsDigit(s[k])
    ensures var l := Scan(s);
            forall k :: l.wholeEnd <= k < l.fractionStart ==> s[k] == '.'
    ensures var l := Scan(s);
            forall k :: l.fractionStart <= k < l.fractionEnd ==> IsDigit(s[k])
  {
    var start := Lead(s).1;
    DigitRunChars(s, start);
    var wholeEnd := start + DigitRun(s, start);
    if wholeEnd < |s| && s[wholeEnd] == '.' {
      DigitRunChars(s, wholeEnd + 1);
    }
  }

  /** The exponent and the trailing whitespace are numeric-string characters. */
  lemma ScanTailChars(s: seq<char>)
    ensures forall k :: Scan(s).fractionEnd <= k < Scan(s).end ==> NumericChar(s[k])
  {
    var i := Scan(s).fractionEnd;
    ExponentChars(s, i);
    WhitespaceRunChars(s, i + Exponent(s, i).0);
  }

  /** Leading whitespace and an optional sign: whether the sign is a minus, and where the digits start. */
  function Lead(s: seq<char>): (r: (bool, nat))
    ensures r.1 <= |s|
  {
    var lead := WhitespaceRun(s, 0);
    var signed := lead < |s| && (s[lead] == '+' || s[lead] == '-');
    (signed && s[lead] == '-', if signed then lead + 1 else lead)
  }

  /** Before the digits there is only whitespace and a sign. */
  lemma LeadChars(s: seq<char>)
    ensures forall k :: 0 <= k < Lead(s).1 ==> NumericChar(s[k])
  {
    WhitespaceRunChars(s, 0);
  }

  /** The mantissa's digits, the point left out. */
  function MantissaDigits(s: seq<char>, l: Layout): seq<char>
    requires l.start <= l.wholeEnd <= l.fractionStart <= l.fractionEnd <= |s|
  {
    s[l.start..l.wholeEnd] + s[l.fractionStart..l.fractionEnd]
  }

  /** The value of a scanned numeric string: its mantissa digits, shifted by the exponent less the fraction digits, and signed. */
  function Value(s: seq<char>, l: Layout): real
    requires l.start <= l.wholeEnd <= l.fractionStart <= l.fractionEnd <= |s|
  {
    var magnitude := DigitsValue(MantissaDigits(s, l)) as real
                     * Scale(l.exponent - (l.fractionEnd - l.fractionStart));
    if l.negative then -magnitude else magnitude
  }

  /**
   * is_numeric and the value abs() sees: None unless the whole string is a
   * numeric string with at least one mantissa digit, else its exact value.
   */
  function Parse(s: seq<char>): Option<real> {
    var l := Scan(s);
    if (l.wholeEnd == l.start && l.fractionEnd == l.fractionStart) || l.end != |s| then None
    else Some(Value(s, l))
  }

  /** A numeric string holds only numeric-string characters, and at least one digit. */
  lemma ParseChars(s: seq<char>)
    ensures Parse(s).Some? ==> forall k :: 0 <= k < |s| ==> NumericChar(s[k])
    ensures Parse(s).Some? ==> exists k :: 0 <= k < |s| && IsDigit(s[k])
  {
    var l := Scan(s);
    if Parse(s).Some? {
      ScanLeadChars(s);
      ScanMantissaChars(s);
      ScanTailChars(s);
      forall k | 0 <= k < |s|
        ensures NumericChar(s[k])
      {
        if k < l.start {
        } else if k < l.wholeEnd {
          assert IsDigit(s[k]);
        } else if k < l.fractionStart {
          assert s[k] == '.';
        } else if k < l.fractionEnd {
          assert IsDigit(s[k]);
        } else {
        }
      }
      if l.wholeEnd > l.start {
        assert IsDigit(s[l.start]);
      } else {
        assert IsDigit(s[l.fractionStart]);
      }
    }
  }

  /** Every character of a digit run is a digit. */
  lemma DigitRunChars(s: seq<char>, i: nat)
    requires i <= |s|
    ensures forall k :: i <= k < i + DigitRun(s, i) ==> IsDigit(s[k])
  {
    var n := DigitRun(s, i);
    assert forall k :: i <= k < i + n ==> s[k] == s[i..i + n][k - i];
  }


  /** A string that starts with an optional minus and a digit has no whitespace before its digits. */
  lemma LeadOfSigned(s: seq<char>, sign: seq<char>)
    requires sign == "" || sign == "-"
    requires |s| > |sign| && s[..|sign|] == sign && IsDigit(s[|sign|])
    ensures Lead(s) == (sign == "-", |sign|)
  {
    if sign == "-" {
      assert s[0] == '-';
    }
    assert WhitespaceRun(s, 0) == 0;
  }

  /** A string that starts with an optional minus and digits scans them as its sign and whole part. */
  lemma ScanWhole(s: seq<char>, sign: seq<char>, d: seq<char>, rest: seq<char>)
    requires sign == "" || sign == "-"
    requires s == sign + d + rest && |d| >= 1 && AllDigits(d)
    requires rest == [] || !IsDigit(rest[0])
    ensures Scan(s).negative == (sign == "-") && Scan(s).start == |sign|
    ensures Scan(s).wholeEnd == |sign| + |d|
  {
    assert s[..|sign|] == sign && s[|sign|] == d[0];
    LeadOfSigned(s, sign);
    assert s[|sign|..|sign| + |d|] == d;
    DigitRunExact(s, |sign|, |sign| + |d|);
  }

  /** A whole part that ends the string leaves no point and no fraction. */
  lemma ScanNoPoint(s: seq<char>)
    requires Scan(s).wholeEnd == |s|
    ensures Scan(s).fractionStart == |s| && Scan(s).fractionEnd == |s|
  {
  }

  /** A point right after the whole part starts the fraction; digits up to the end of the string make it up. */
  lemma ScanPointDigits(s: seq<char>)
    requires Scan(s).wholeEnd < |s| && s[Scan(s).wholeEnd] == '.'
    requires AllDigits(s[Scan(s).wholeEnd + 1..])
    ensures Scan(s).fractionStart == Scan(s).wholeEnd + 1 && Scan(s).fractionEnd == |s|
  {
    var i := Scan(s).wholeEnd + 1;
    assert s[i..|s|] == s[i..];
    DigitRunExact(s, i, |s|);
  }

  /** Nothing comes after a mantissa that ends the string. */
  lemma ScanEnds(s: seq<char>)
    requires Scan(s).fractionEnd == |s|
    ensures Scan(s).exponent == 0 && Scan(s).exponentEnd == |s| && Scan(s).end == |s|
  {
  }

  /** The value Parse gives a string that scans as a non-empty mantissa reaching the end of the string. */
  lemma ParseMantissa(s: seq<char>, l: Layout)
    requires l == Scan(s) && l.fractionEnd == |s|
    requires l.wholeEnd > l.start || l.fractionEnd > l.fractionStart
    ensures Parse(s) == Some(Value(s, l))
  {
    ScanEnds(s);
  }

  /** An optional minus and a run of digits is numeric, worth the digits' value with that sign. */
  lemma SignedDigitsNumeric(s: seq<char>, sign: seq<char>, d: seq<char>, v: real)
    requires sign == "" || sign == "-"
    requires s == sign + d && |d| >= 1 && AllDigits(d) && v == DigitsValue(d) as real
    ensures Parse(s) == Some(if sign == "-" then -v else v)
  {
    ScanWhole(s, sign, d, []);
    ScanNoPoint(s);
    ScanEnds(s);
    var l := Scan(s);
    ParseMantissa(s, l);
    assert s[l.start..l.wholeEnd] == d;
    WholeValue(s, l, d, v);
  }

  /** A mantissa without fraction digits or exponent is worth its digits, with its sign. */
  lemma WholeValue(s: seq<char>, l: Layout, d: seq<char>, v: real)
    requires l.start <= l.wholeEnd <= l.fractionStart == l.fractionEnd <= |s| && l.exponent == 0
    requires s[l.start..l.wholeEnd] == d && v == DigitsValue(d) as real
    ensures Value(s, l) == (if l.negative then -v else v)
  {
    assert MantissaDigits(s, l) == d;
    assert Scale(0) == 1.0;
  }

  /** After the whole part, a point and one digit scan as the fraction, with nothing left over. */
  lemma ScanTenths(s: seq<char>, sign: seq<char>, d: seq<char>, c: char)
    requires sign == "" || sign == "-"
    requires s == sign + d + ['.', c] && |d| >= 1 && AllDigits(d) && IsDigit(c)
    ensures var l := Scan(s);
            l.negative == (sign == "-") && l.start == |sign| && l.wholeEnd == |sign| + |d|
            && l.fractionStart == l.wholeEnd + 1 && l.fractionEnd == |s|
    ensures s[|sign|..|sign| + |d|] == d && s[|sign| + |d| + 1..|s|] == [c]
  {
    ScanWhole(s, sign, d, ['.', c]);
    var w := |sign| + |d|;
    assert s[w] == '.';
    assert s[w + 1..] == [c];
    ScanPointDigits(s);
    assert s[w + 1..|s|] == [c];
  }

  /** An optional minus, a run of digits, a point and one digit is numeric, worth a tenth of all its digits' value. */
  lemma SignedTenthsNumeric(s: seq<char>, sign: seq<char>, d: seq<char>, c: char, v: real)
    requires sign == "" || sign == "-"
    requires s == sign + d + ['.', c] && |d| >= 1 && AllDigits(d) && IsDigit(c)
    requires v == DigitsValue(d) as real + DigitValue(c) as real / 10.0
    ensures Parse(s) == Some(if sign == "-" then -v else v)
  {
    ScanTenths(s, sign, d, c);
    ScanEnds(s);
    var l := Scan(s);
    ParseMantissa(s, l);
    TenthsValue(s, l, d, c, v);
  }

  /** A mantissa of whole digits and one fraction digit, with no exponent, is worth a tenth of its digits. */
  lemma TenthsValue(s: seq<char>, l: Layout, d: seq<char>, c: char, v: real)
    requires l.start <= l.wholeEnd <= l.fractionStart && l.fractionStart + 1 == l.fractionEnd <= |s|
    requires l.exponent == 0
    requires s[l.start..l.wholeEnd] == d && s[l.fractionStart..l.fractionEnd] == [c]
    requires v == DigitsValue(d) as real + DigitValue(c) as real / 10.0
    ensures Value(s, l) == (if l.negative then -v else v)
  {
    assert MantissaDigits(s, l) == d + [c];
    AppendDigit(d, c);
    assert Scale(l.exponent - (l.fractionEnd - l.fractionStart)) == 1.0 / 10.0;
  }

  /** PHP's text for an integer is numeric and worth the integer. */
  lemma IntTextNumeric(i: int)
    ensures Parse(IntText(i)) == Some(i as real)
  {
    if i < 0 {
      SignedDigitsNumeric(IntText(i), "-", NatText(-i), (-i) as real);
    } else {
      SignedDigitsNumeric(IntText(i), "", NatText(i), i as real);
    }
  }
  /** The digits of a whole part and one more digit are worth ten wholes and that digit. */
  lemma AppendDigit(w: seq<char>, c: char)
    ensures DigitsValue(w + [c]) == DigitsValue(w) * 10 + DigitValue(c)
  {
    assert (w + [c])[..|w|] == w;
  }
}

=== FILE: rounding.dfy ===
/**
 * PHP's `round()` on exact reals, in the two modes the library uses:
 * the default half-away-from-zero mode and `RoundingMode::HalfTowardsZero`.
 * A precision may be negative, as in PHP, where it rounds to tens, hundreds, ...
 * The arithmetic is stated once for an arbitrary positive scale `s` (10^p).
 */
module Rounding {

  /** PHP_FLOAT_DIG: the number of decimal digits a double carries faithfully. */
  const PHP_FLOAT_DIG: nat := 15

  function Pow10(n: nat): (r: nat)
    ensures r >= 1
  {
    if n == 0 then 1 else 10 * Pow10(n - 1)
  }

  /** The factor PHP's round() multiplies by before rounding to `p` decimals. */
  function Scale(p: int): (r: real)
    ensures r > 0.0
  {
    if p >= 0 then Pow10(p) as real else 1.0 / (Pow10(-p) as real)
  }

  function Abs(x: real): (r: real)
    ensures r >= 0.0
    ensures r == x || r == -x
  {
    if x < 0.0 then -x else x
  }

  function AbsInt(x: int): (r: nat)
    ensures r == x || r == -x
  {
    if x < 0 then -x else x
  }

  /** Smallest integer not below `y`. */
  function Ceil(y: real): (n: int)
    ensures n as real >= y && (n as real) - 1.0 < y
  {
    -((-y).Floor)
  }

  /** `x` is a whole number of units 1/s. */
  predicate GridAt(x: real, s: real) {
    (x * s).Floor as real == x * s
  }

  /** Half of one unit in the last of `p` decimals: the largest rounding error. */
  function HalfUnit(p: int): (h: real)
    ensures h > 0.0
  {
    0.5 / Scale(p)
  }

  /** `x` has at most `p` decimals. */
  predicate OnGrid(x: real, p: int) {
    GridAt(x, Scale(p))
  }

  /** Units 1/s nearest to `x`; ties go away from zero when `away`, towards zero otherwise. */
  function UnitsAt(x: real, s: real, away: bool): int {
    var m := if away then (Abs(x) * s + 0.5).Floor else Ceil(Abs(x) * s - 0.5);
    if x < 0.0 then -m else m
  }

  /** Rounding to the nearest multiple of 1/s. */
  function RoundAt(x: real, s: real, away: bool): real
    requires s > 0.0
  {
    UnitsAt(x, s, away) as real / s
  }

  /** What rounding at a scale promises: on the grid, within half a unit, ties broken by mode. */
  lemma RoundAtSpec(x: real, s: real, away: bool)
    requires s > 0.0
    ensures GridAt(RoundAt(x, s, away), s)
    ensures Abs(RoundAt(x, s, away) - x) <= 0.5 / s
    ensures away && Abs(RoundAt(x, s, away) - x) == 0.5 / s ==> Abs(RoundAt(x, s, away)) > Abs(x)
    ensures !away && Abs(RoundAt(x, s, away) - x) == 0.5 / s ==> Abs(RoundAt(x, s, away)) < Abs(x)
    ensures (x >= 0.0 ==> RoundAt(x, s, away) >= 0.0) && (x <= 0.0 ==> RoundAt(x, s, away) <= 0.0)
  {
    var n := UnitsAt(x, s, away);
    DistanceAtScale(x, s, n, away);
    UnitsSpec(x, s, n, away);
  }

  /** The rounding promises for `n` units 1/s, from the distance facts at that scale. */
  lemma UnitsSpec(x: real, s: real, n: int, away: bool)
    requires s > 0.0
    requires Abs(n as real / s - x) * s <= 0.5
    requires away && Abs(n as real / s - x) * s == 0.5 ==> Abs(n as real / s) > Abs(x)
    requires !away && Abs(n as real / s - x) * s == 0.5 ==> Abs(n as real / s) < Abs(x)
    requires (x >= 0.0 ==> n >= 0) && (x <= 0.0 ==> n <= 0)
    ensures GridAt(n as real / s, s)
    ensures Abs(n as real / s - x) <= 0.5 / s
    ensures away && Abs(n as real / s - x) == 0.5 / s ==> Abs(n as real / s) > Abs(x)
    ensures !away && Abs(n as real / s - x) == 0.5 / s ==> Abs(n as real / s) < Abs(x)
    ensures (x >= 0.0 ==> n as real / s >= 0.0) && (x <= 0.0 ==> n as real / s <= 0.0)
  {
    UnitsOnGrid(n, s);
    MulToDiv(Abs(n as real / s - x), s);
  }

  /** A bound on d * s is the same bound on d / (1/s). */
  lemma MulToDiv(d: real, s: real)
    requires s > 0.0
    ensures d * s <= 0.5 <==> d <= 0.5 / s
    ensures d * s == 0.5 <==> d == 0.5 / s
  {
    assert (0.5 / s) * s == 0.5;
  }

  /** round($x, $p): PHP's default mode, PHP_ROUND_HALF_UP (ties away from zero). */
  function RoundHalfAway(x: real, p: int): (r: real)
    ensures OnGrid(r, p)
    ensures Abs(r - x) <= HalfUnit(p)
    ensures Abs(r - x) == HalfUnit(p) ==> Abs(r) > Abs(x)
    ensures (x >= 0.0 ==> r >= 0.0) && (x <= 0.0 ==> r <= 0.0)
  {
    var r := RoundAt(x, Scale(p), true);
    RoundSpec(x, p, true, r);
    r
  }

  /** round($x, $p, RoundingMode::HalfTowardsZero). */
  function RoundHalfTowardsZero(x: real, p: int): (r: real)
    ensures OnGrid(r, p)
    ensures Abs(r - x) <= HalfUnit(p)
    ensures Abs(r - x) == HalfUnit(p) ==> Abs(r) < Abs(x)
    ensures (x >= 0.0 ==> r >= 0.0) && (x <= 0.0 ==> r <= 0.0)
  {
    var r := RoundAt(x, Scale(p), false);
    RoundSpec(x, p, false, r);
    r
  }

  /** RoundAtSpec restated at the scale of a decimal precision. */
  lemma RoundSpec(x: real, p: int, away: bool, r: real)
    requires r == RoundAt(x, Scale(p), away)
    ensures OnGrid(r, p)
    ensures Abs(r - x) <= HalfUnit(p)
    ensures away && Abs(r - x) == HalfUnit(p) ==> Abs(r) > Abs(x)
    ensures !away && Abs(r - x) == HalfUnit(p) ==> Abs(r) < Abs(x)
    ensures (x >= 0.0 ==> r >= 0.0) && (x <= 0.0 ==> r <= 0.0)
  {
    RoundAtSpec(x, Scale(p), away);
  }

  /** A whole number of units lies on the grid. */
  lemma UnitsOnGrid(n: int, s: real)
    requires s > 0.0
    ensures GridAt(n as real / s, s)
  {
    assert (n as real / s) * s == n as real;
  }

  /** Rounding a non-negative magnitude `y` to a whole number `m`, in both modes. */
  lemma MagnitudeRounding(y: real, m: int, away: bool)
    requires y >= 0.0
    requires m == (if away then (y + 0.5).Floor else Ceil(y - 0.5))
    ensures m >= 0
    ensures -0.5 <= m as real - y <= 0.5
    ensures away && m as real - y == -0.5 ==> false
    ensures !away && m as real - y == 0.5 ==> false
  {
  }

  /** Scaling by a positive factor commutes with the absolute value. */
  lemma AbsScale(u: real, s: real)
    requires s > 0.0
    ensures Abs(u) * s == Abs(u * s)
  {
    if u < 0.0 {
      assert u * s < 0.0;
      assert Abs(u) * s == -(u * s);
    } else {
      assert u * s >= 0.0;
    }
  }

  /** Dividing the signed unit count by the scale undoes the scaling of |x|. */
  lemma Unscale(x: real, s: real, m: int, n: int, r: real)
    requires s > 0.0
    requires m >= 0 && n == (if x < 0.0 then -m else m) && r * s == n as real
    ensures Abs(r - x) * s == Abs(m as real - Abs(x) * s)
    ensures Abs(r) * s == m as real
  {
    Distribute(r, x, s);
    SignedScale(x, s);
    AbsScale(r - x, s);
    AbsScale(r, s);
    if x < 0.0 {
      assert (r - x) * s == -(m as real - Abs(x) * s);
    } else {
      assert (r - x) * s == m as real - Abs(x) * s;
    }
  }

  /** Multiplying a quotient back by its divisor restores the dividend. */
  lemma DivCancel(a: real, s: real)
    requires s > 0.0
    ensures (a / s) * s == a
  {
  }

  /** Multiplication distributes over a difference. */
  lemma Distribute(a: real, b: real, s: real)
    ensures (a - b) * s == a * s - b * s
  {
  }

  /** Scaling |x| by a positive factor is scaling x, negated when x is negative. */
  lemma SignedScale(x: real, s: real)
    requires s > 0.0
    ensures x < 0.0 ==> Abs(x) * s == -(x * s)
    ensures x >= 0.0 ==> Abs(x) * s == x * s
  {
  }

  /** Comparisons survive cancelling a positive factor. */
  lemma CancelFactor(a: real, b: real, s: real)
    requires s > 0.0
    ensures a * s < b * s ==> a < b
    ensures a * s == b * s ==> a == b
  {
  }

  /** Distance and tie direction of a rounded unit count at a positive scale `s`. */
  lemma DistanceAtScale(x: real, s: real, n: int, away: bool)
    requires s > 0.0
    requires n == UnitsAt(x, s, away)
    ensures Abs(n as real / s - x) * s <= 0.5
    ensures away && Abs(n as real / s - x) * s == 0.5 ==> Abs(n as real / s) > Abs(x)
    ensures !away && Abs(n as real / s - x) * s == 0.5 ==> Abs(n as real / s) < Abs(x)
    ensures (x >= 0.0 ==> n >= 0) && (x <= 0.0 ==> n <= 0)
  {
    var y := Abs(x) * s;
    var m := if away then (y + 0.5).Floor else Ceil(y - 0.5);
    MagnitudeRounding(y, m, away);
    UnscaledDistance(x, s, m, n, away);
  }

  /** The distance facts for a signed unit count `n`, once its magnitude `m` is known to be within half a unit of |x| * s. */
  lemma UnscaledDistance(x: real, s: real, m: int, n: int, away: bool)
    requires s > 0.0 && m >= 0
    requires -0.5 <= m as real - Abs(x) * s <= 0.5
    requires away ==> m as real - Abs(x) * s != -0.5
    requires !away ==> m as real - Abs(x) * s != 0.5
    requires n == (if x < 0.0 then -m else m)
    ensures Abs(n as real / s - x) * s <= 0.5
    ensures away && Abs(n as real / s - x) * s == 0.5 ==> Abs(n as real / s) > Abs(x)
    ensures !away && Abs(n as real / s - x) * s == 0.5 ==> Abs(n as real / s) < Abs(x)
    ensures (x >= 0.0 ==> n >= 0) && (x <= 0.0 ==> n <= 0)
  {
    var r := n as real / s;
    DivCancel(n as real, s);
    Unscale(x, s, m, n, r);
    TieDirection(Abs(x), Abs(r), s, Abs(x) * s, m as real);
  }

  /** A scaled distance of one half decides which of the two magnitudes is larger. */
  lemma TieDirection(ax: real, ar: real, s: real, y: real, m: real)
    requires s > 0.0
    requires ax * s == y && ar * s == m
    ensures m - y == 0.5 ==> ar > ax
    ensures m - y == -0.5 ==> ar < ax
  {
    CancelFactor(ax, ar, s);
    CancelFactor(ar, ax, s);
  }


  /** Rounding leaves a whole number of units unchanged, in both modes. */
  lemma RoundAtGrid(x: real, s: real, away: bool)
    requires s > 0.0
    requires GridAt(x, s)
    ensures RoundAt(x, s, away) == x
  {
    var k := (x * s).Floor;
    assert k as real == x * s;
    assert Abs(x) * s == AbsInt(k) as real by {
      if x < 0.0 { assert Abs(x) * s == -(x * s); }
    }
    assert UnitsAt(x, s, away) == k;
    assert k as real / s == x;
  }

  /** Rounding leaves a value that already has at most `p` decimals unchanged. */
  lemma RoundOnGrid(x: real, p: int)
    requires OnGrid(x, p)
    ensures RoundHalfAway(x, p) == x
    ensures RoundHalfTowardsZero(x, p) == x
  {
    RoundAtGrid(x, Scale(p), true);
    RoundAtGrid(x, Scale(p), false);
  }

  /** Rounding twice to the same precision is rounding once. */
  lemma {:induction false} RoundIdempotent(x: real, p: int)
    ensures RoundHalfAway(RoundHalfAway(x, p), p) == RoundHalfAway(x, p)
    ensures RoundHalfTowardsZero(RoundHalfTowardsZero(x, p), p) == RoundHalfTowardsZero(x, p)
  {
    RoundOnGrid(RoundHalfAway(x, p), p);
    RoundOnGrid(RoundHalfTowardsZero(x, p), p);
  }

  /** Rounding at a scale commutes with negation. */
  lemma RoundAtOdd(x: real, s: real, away: bool)
    requires s > 0.0
    ensures RoundAt(-x, s, away) == -RoundAt(x, s, away)
  {
    assert Abs(-x) == Abs(x);
    assert UnitsAt(-x, s, away) == -UnitsAt(x, s, away);
  }

  /** Both rounding modes are odd functions: rounding commutes with negation. */
  lemma RoundOdd(x: real, p: int)
    ensures RoundHalfAway(-x, p) == -RoundHalfAway(x, p)
    ensures RoundHalfTowardsZero(-x, p) == -RoundHalfTowardsZero(x, p)
  {
    RoundAtOdd(x, Scale(p), true);
    RoundAtOdd(x, Scale(p), false);
  }

  /** intval() of a float: truncation towards zero. */
  function Trunc(y: real): (n: int)
    ensures y >= 0.0 ==> n >= 0 && n as real <= y < n as real + 1.0
    ensures y < 0.0 ==> n <= 0 && n as real - 1.0 < y <= n as real
  {
    if y >= 0.0 then y.Floor else -((-y).Floor)
  }

  /** A real that equals a whole number lies on every non-negative grid. */
  lemma WholeOnGrid(x: real, p: nat)
    requires x.Floor as real == x
    ensures OnGrid(x, p)
  {
    var n := x.Floor;
    assert x * Scale(p) == (n * Pow10(p)) as real;
  }

  /** Powers of ten multiply by adding exponents. */
  lemma {:induction false} Pow10Add(p: nat, k: nat)
    ensures Pow10(p + k) == Pow10(p) * Pow10(k)
  {
    if k > 0 {
      Pow10Add(p, k - 1);
      assert Pow10(p + k) == 10 * Pow10(p + k - 1);
    }
  }

  /** At a non-negative precision the scale is a whole power of ten. */
  lemma ScaleIsPow10(p: nat)
    ensures Scale(p) == Pow10(p) as real
  {
  }

  /** A real equal to a whole number is its own floor. */
  lemma WholeFloor(y: real, m: int)
    requires y == m as real
    ensures y.Floor as real == y
  {
  }

  /** Multiplying the scale by a whole factor keeps a grid value on the grid. */
  lemma GridAtFiner(x: real, s: real, f: int)
    requires s > 0.0 && GridAt(x, s)
    ensures GridAt(x, s * f as real)
  {
    var n := (x * s).Floor;
    assert x * (s * f as real) == (x * s) * f as real;
    WholeFloor(x * (s * f as real), n * f);
  }

  /** A value with at most `p` decimals also has at most `q` decimals when q >= p. */
  lemma GridWidens(x: real, p: nat, q: nat)
    requires OnGrid(x, p) && p <= q
    ensures OnGrid(x, q)
  {
    var f := Pow10(q - p);
    var sp, sq := Scale(p), Scale(q);
    assert sq == sp * f as real by {
      Pow10Add(p, q - p);
      ScaleIsPow10(p);
      ScaleIsPow10(q);
      ScaleProduct(sq, sp, Pow10(q), Pow10(p), f);
    }
    GridAtFiner(x, sp, f);
  }



  /** A whole power that factors as a * f gives a scale that factors the same way. */
  lemma ScaleProduct(sq: real, sp: real, pq: int, a: int, f: int)
    requires sq == pq as real && pq == a * f && sp == a as real
    ensures sq == sp * f as real
  {
    CastProduct(a, f);
  }

  /** Casting to real commutes with multiplication. */
  lemma CastProduct(a: int, b: int)
    ensures (a * b) as real == a as real * b as real
  {
  }

  /** Integer combinations of a grid value stay on the grid, at a whole scale. */
  lemma GridAtLinear(x: real, w: int, c: int, k: int)
    requires w > 0 && GridAt(x, w as real)
    ensures GridAt(x * c as real + k as real, w as real)
  {
    var n := (x * w as real).Floor;
    var y := x * c as real + k as real;
    assert x * w as real == n as real;
    assert y * w as real == (x * w as real) * c as real + k as real * w as real;
    assert y * w as real == (n * c + k * w) as real;
    WholeFloor(y * w as real, n * c + k * w);
    assert GridAt(y, w as real);
  }

  /** Integer combinations of a grid value stay on the grid. */
  lemma GridLinear(x: real, p: nat, c: int, k: int)
    requires OnGrid(x, p)
    ensures OnGrid(x * c as real + k as real, p)
  {
    ScaleIsPow10(p);
    GridAtLinear(x, Pow10(p), c, k);
  }

  /** The magnitude of a grid value is on the grid. */
  lemma GridAbs(x: real, p: nat)
    requires OnGrid(x, p)
    ensures OnGrid(Abs(x), p)
  {
    GridLinear(x, p, -1, 0);
    assert x * (-1) as real + 0 as real == -x;
  }

  /** The sum of two values on a grid is on it. */
  lemma GridAdd(x: real, y: real, p: int)
    requires OnGrid(x, p) && OnGrid(y, p)
    ensures OnGrid(x + y, p)
  {
    GridAtAdd(x, y, Scale(p));
  }

  /** The sum of two whole numbers of units 1/s is one. */
  lemma GridAtAdd(x: real, y: real, s: real)
    requires GridAt(x, s) && GridAt(y, s)
    ensures GridAt(x + y, s)
  {
    var n, m := (x * s).Floor, (y * s).Floor;
    assert (x + y) * s == x * s + y * s;
    WholeFloor((x + y) * s, n + m);
  }

  /** Two ordered values on the same grid are equal or at least one whole unit apart. */
  lemma GridGapOrEqual(a: real, b: real, p: int)
    requires OnGrid(a, p) && OnGrid(b, p) && a <= b
    ensures a == b || b - a >= 2.0 * HalfUnit(p)
  {
    if a < b {
      GridGap(a, b, p);
    }
  }

  /** Rounding half towards zero gives a negative value exactly when the input lies below minus half a unit. */
  lemma RoundTowardsZeroNegative(x: real, p: int)
    ensures RoundHalfTowardsZero(x, p) < 0.0 <==> x < -HalfUnit(p)
  {
    var r := RoundHalfTowardsZero(x, p);
    var h := HalfUnit(p);
    if x < 0.0 && -h <= x {
      assert OnGrid(0.0, p);
      GridGapOrEqual(r, 0.0, p);
    }
  }

  /** Two distinct values on the same grid are at least one whole unit apart. */
  lemma GridGap(a: real, b: real, p: int)
    requires OnGrid(a, p) && OnGrid(b, p) && a < b
    ensures b - a >= 2.0 * HalfUnit(p)
  {
    GridAtGap(a, b, Scale(p));
  }

  /** GridGap at an arbitrary positive scale. */
  lemma GridAtGap(a: real, b: real, s: real)
    requires s > 0.0 && GridAt(a, s) && GridAt(b, s) && a < b
    ensures b - a >= 2.0 * (0.5 / s)
  {
    var na, nb := (a * s).Floor, (b * s).Floor;
    assert a * s < b * s;
    assert na < nb;
    assert (b - a) * s == (nb - na) as real;
    assert (b - a) * s >= 1.0;
    assert 2.0 * (0.5 / s) == 1.0 / s;
    assert (1.0 / s) * s == 1.0;
  }

  /** Rounding never crosses a value that is already on the grid. */
  lemma RoundBelowGrid(x: real, g: real, p: int)
    requires x <= g && OnGrid(g, p)
    ensures RoundHalfAway(x, p) <= g
    ensures RoundHalfTowardsZero(x, p) <= g
  {
    var r1, r2 := RoundHalfAway(x, p), RoundHalfTowardsZero(x, p);
    if r1 > g { GridGap(g, r1, p); }
    if r2 > g { GridGap(g, r2, p); }
  }
}

=== FILE: sum_builders.dfy ===
/**
 * What the two decimal-space sum builders share (src/Builders/SumBuilder.php and
 * its subclasses): the builder's fields, and the helpers they call that are
 * defined outside the shown classes, passed in as collaborators.
 */
module SumBuilders {
  import opened Wrappers
  import opened Rounding
  import opened Angles
  import opened Builder

  /**
   * The helpers the sum builders call but do not define: the three shortcut
   * tests, the larger suggested precision of two angles, the carry of a decimal
   * sum into degrees, minutes and seconds (checkOverflow, calcDegrees, calcMinutes
   * and calcSeconds), and countDecimalPlaces.
   */
  datatype Collaborators = Collaborators(
    bothFullPositive: (Angle, Angle) -> bool,
    bothFullNegative: (Angle, Angle) -> bool,
    bothNull: (Angle, Angle) -> bool,
    maxSuggestedPrecision: (Angle, Angle) -> int,
    derive: real -> (int, int, real),
    places: real -> nat)

  /** The builder's fields that calcSum sets and fetchData reads. */
  datatype SumState = SumState(
    degrees: int,
    minutes: int,
    seconds: real,
    direction: int,
    decimalPrecision: Option<int>,
    decimalSum: Option<real>)

  /** The fields before calcSum: a null angle, counter-clockwise, with no decimal sum yet. */
  const INITIAL: SumState := SumState(0, 0, 0.0, COUNTER_CLOCKWISE, None, None)

  /** The two addends' decimals at the default precision, added. */
  function DecimalAddends(a: Angle, b: Angle): real {
    ToDecimal(a) + ToDecimal(b)
  }

  /** The general path's decimal sum: the addends' decimals added, rounded half towards zero. */
  function DecimalSum(a: Angle, b: Angle, precision: int): (d: real)
    ensures OnGrid(d, precision)
    ensures Abs(d - DecimalAddends(a, b)) <= HalfUnit(precision)
    ensures Abs(d - DecimalAddends(a, b)) == HalfUnit(precision) ==> Abs(d) < Abs(DecimalAddends(a, b))
    ensures d < 0.0 <==> DecimalAddends(a, b) < -HalfUnit(precision)
  {
    RoundTowardsZeroNegative(DecimalAddends(a, b), precision);
    RoundHalfTowardsZero(DecimalAddends(a, b), precision)
  }

  /** The general path after the decimal sum: the collaborator's carry sets the three values, nothing else. */
  function Derived(s: SumState, sum: real, c: Collaborators): (r: SumState)
    ensures r.direction == s.direction && r.decimalPrecision == s.decimalPrecision
    ensures r.decimalSum == s.decimalSum
    ensures (r.degrees, r.minutes, r.seconds) == c.derive(sum)
  {
    var values := c.derive(sum);
    s.(degrees := values.0, minutes := values.1, seconds := values.2)
  }
}

/**
 * The relative sum (src/Builders/FromAnglesToRelativeSum.php): three
 * shortcuts, then a decimal sum whose sign gives the direction.
 */
module RelativeSum {
  import opened Wrappers
  import opened Rounding
  import opened Angles
  import opened Builder
  import opened SumBuilders

  /** calcSign: counter-clockwise exactly when the decimal sum is not negative. */
  function Sign(decimalSum: real): (direction: int)
    ensures ValidDirection(direction)
    ensures direction == CLOCKWISE <==> decimalSum < 0.0
  {
    if decimalSum >= 0.0 then COUNTER_CLOCKWISE else CLOCKWISE
  }

  /** calcSum: the shortcuts in their order, else the rounded decimal sum, its sign and the carry. */
  function CalcSum(a: Angle, b: Angle, c: Collaborators): (s: SumState)
    ensures c.bothFullPositive(a, b) ==> s == INITIAL.(degrees := MAX_DEGREES)
    ensures !c.bothFullPositive(a, b) && c.bothFullNegative(a, b) ==>
              s == INITIAL.(degrees := MAX_DEGREES, direction := CLOCKWISE)
    ensures !c.bothFullPositive(a, b) && !c.bothFullNegative(a, b) && c.bothNull(a, b) ==> s == INITIAL
    ensures ValidDirection(s.direction)
    ensures s.decimalSum.Some? <==> !c.bothFullPositive(a, b) && !c.bothFullNegative(a, b) && !c.bothNull(a, b)
    ensures s.decimalSum.Some? ==>
              var p := c.maxSuggestedPrecision(a, b);
              && s.decimalPrecision == Some(p)
              && OnGrid(s.decimalSum.value, p)
              && Abs(s.decimalSum.value - DecimalAddends(a, b)) <= HalfUnit(p)
              && (Abs(s.decimalSum.value - DecimalAddends(a, b)) == HalfUnit(p) ==>
                    Abs(s.decimalSum.value) < Abs(DecimalAddends(a, b)))
              && (s.direction == CLOCKWISE <==> DecimalAddends(a, b) < -HalfUnit(p))
              && (s.degrees, s.minutes, s.seconds) == c.derive(s.decimalSum.value)
  {
    if c.bothFullPositive(a, b) then INITIAL.(degrees := MAX_DEGREES)
    else if c.bothFullNegative(a, b) then INITIAL.(degrees := MAX_DEGREES, direction := CLOCKWISE)
    else if c.bothNull(a, b) then INITIAL
    else
      var precision := c.maxSuggestedPrecision(a, b);
      var sum := DecimalSum(a, b, precision);
      var signed := INITIAL.(decimalPrecision := Some(precision), decimalSum := Some(sum), direction := Sign(sum));
      Derived(signed, sum, c)
  }

  /** fetchData: the fields as calcSum leaves them, the decimal provenance, and the seconds' decimal places. */
  function FetchData(a: Angle, b: Angle, c: Collaborators): (f: Fetched)
    ensures var s := CalcSum(a, b, c);
            f.degrees == s.degrees && f.minutes == s.minutes && f.seconds == s.seconds
            && f.direction == s.direction
    ensures f.provenance.Some?
    ensures f.provenance.value.suggestedPrecision == CalcSum(a, b, c).decimalPrecision
    ensures f.provenance.value.originalDecimal == CalcSum(a, b, c).decimalSum
    ensures f.provenance.value.secondsPrecision == Some(c.places(f.seconds) as int)
    ensures f.provenance.value.originalRadian.None? && f.provenance.value.radianPrecision.None?
  {
    var s := CalcSum(a, b, c);
    Fetched(s.degrees, s.minutes, s.seconds, s.direction,
            Some(Provenance(s.decimalPrecision, s.decimalSum, Some(c.places(s.seconds) as int), None, None)))
  }

  /** Away from the shortcuts, addends of the same direction keep it: 30° + 30° turns counter-clockwise, and reversed clockwise. */
  lemma SameDirectionKept(a: Angle, b: Angle, c: Collaborators)
    requires !c.bothFullPositive(a, b) && !c.bothFullNegative(a, b) && !c.bothNull(a, b)
    requires a.direction == b.direction && ValidDirection(a.direction)
    requires Magnitude(a) >= 0.0 && Magnitude(b) >= 0.0
    requires Magnitude(a) + Magnitude(b) > 2.0 * HalfUnit(1) + HalfUnit(c.maxSuggestedPrecision(a, b))
    ensures CalcSum(a, b, c).direction == a.direction
  {
    var p := c.maxSuggestedPrecision(a, b);
    var x := DecimalAddends(a, b);
    if a.direction == CLOCKWISE {
      assert ToDecimal(a) <= -Magnitude(a) + HalfUnit(1);
      assert ToDecimal(b) <= -Magnitude(b) + HalfUnit(1);
      assert x < -HalfUnit(p);
    }
  }

  /** The full-positive shortcut wins over the full-negative one, which wins over the null one. */
  lemma ShortcutOrder(a: Angle, b: Angle, c: Collaborators)
    requires c.bothFullPositive(a, b) || c.bothFullNegative(a, b) || c.bothNull(a, b)
    ensures CalcSum(a, b, c).decimalSum.None? && CalcSum(a, b, c).decimalPrecision.None?
    ensures CalcSum(a, b, c).degrees == (if c.bothFullPositive(a, b) || c.bothFullNegative(a, b) then MAX_DEGREES else 0)
    ensures CalcSum(a, b, c).direction == CLOCKWISE <==> !c.bothFullPositive(a, b) && c.bothFullNegative(a, b)
  {
  }
}

/**
 * The absolute sum (src/Builders/FromAnglesToAbsoluteSum.php): calcSign
 * always sets counter-clockwise, and runs before the two shortcuts.
 */
module AbsoluteSum {
  import opened Wrappers
  import opened Rounding
  import opened Angles
  import opened Builder
  import opened SumBuilders
  import RelativeSum

  /** calcSum: counter-clockwise first, then the shortcuts, else the rounded decimal sum and the carry. */
  function CalcSum(a: Angle, b: Angle, c: Collaborators): (s: SumState)
    ensures s.direction == COUNTER_CLOCKWISE
    ensures c.bothFullPositive(a, b) ==> s == INITIAL.(degrees := MAX_DEGREES)
    ensures !c.bothFullPositive(a, b) && c.bothNull(a, b) ==> s == INITIAL
    ensures s.decimalSum.Some? <==> !c.bothFullPositive(a, b) && !c.bothNull(a, b)
    ensures s.decimalSum.Some? ==>
              var p := c.maxSuggestedPrecision(a, b);
              && s.decimalPrecision == Some(p)
              && OnGrid(s.decimalSum.value, p)
              && Abs(s.decimalSum.value - DecimalAddends(a, b)) <= HalfUnit(p)
              && (Abs(s.decimalSum.value - DecimalAddends(a, b)) == HalfUnit(p) ==>
                    Abs(s.decimalSum.value) < Abs(DecimalAddends(a, b)))
              && (s.degrees, s.minutes, s.seconds) == c.derive(s.decimalSum.value)
  {
    var signed := INITIAL.(direction := COUNTER_CLOCKWISE);
    if c.bothFullPositive(a, b) then signed.(degrees := MAX_DEGREES)
    else if c.bothNull(a, b) then signed
    else
      var precision := c.maxSuggestedPrecision(a, b);
      var sum := DecimalSum(a, b, precision);
      Derived(signed.(decimalPrecision := Some(precision), decimalSum := Some(sum)), sum, c)
  }

  /** fetchData: the fields as calcSum leaves them, six more suggested decimals than the seconds have, and the decimal sum. */
  function FetchData(a: Angle, b: Angle, c: Collaborators): (f: Fetched)
    ensures var s := CalcSum(a, b, c);
            f.degrees == s.degrees && f.minutes == s.minutes && f.seconds == s.seconds
            && f.direction == COUNTER_CLOCKWISE
    ensures f.provenance.Some?
    ensures f.provenance.value.suggestedPrecision == Some(c.places(f.seconds) + 6)
    ensures f.provenance.value.originalDecimal == CalcSum(a, b, c).decimalSum
    ensures f.provenance.value.secondsPrecision == Some(c.places(f.seconds) as int)
    ensures f.provenance.value.originalRadian.None? && f.provenance.value.radianPrecision.None?
  {
    var s := CalcSum(a, b, c);
    var places := c.places(s.seconds);
    Fetched(s.degrees, s.minutes, s.seconds, s.direction,
            Some(Provenance(Some(places + 6), s.decimalSum, Some(places as int), None, None)))
  }

  /** Unless both addends are full negative turns, the absolute sum is the relative sum turned counter-clockwise. */
  lemma RelativeTurnedCounterClockwise(a: Angle, b: Angle, c: Collaborators)
    requires !c.bothFullNegative(a, b) || c.bothFullPositive(a, b)
    ensures CalcSum(a, b, c) == RelativeSum.CalcSum(a, b, c).(direction := COUNTER_CLOCKWISE)
  {
  }

  /** For two full negative turns the relative sum takes its shortcut to 360° clockwise, the absolute sum computes. */
  lemma FullNegativesDiffer(a: Angle, b: Angle, c: Collaborators)
    requires c.bothFullNegative(a, b) && !c.bothFullPositive(a, b) && !c.bothNull(a, b)
    ensures RelativeSum.CalcSum(a, b, c).decimalSum.None?
    ensures CalcSum(a, b, c).decimalSum.Some?
  {
  }
}

=== FILE: text.dfy ===
/**
 * Characters and decimal digit strings as PHP sees them: ASCII digits and
 * word characters, the integer value of a digit string, and the decimal text
 * PHP prints for an integer.
 */
module Text {
  import opened Rounding

  predicate IsDigit(c: char) {
    '0' <= c <= '9'
  }

  /** A PCRE word character, \w, in the ASCII locale: letter, digit or underscore. */
  predicate IsWordChar(c: char) {
    IsDigit(c) || ('a' <= c <= 'z') || ('A' <= c <= 'Z') || c == '_'
  }

  predicate AllDigits(s: seq<char>) {
    forall k :: 0 <= k < |s| ==> IsDigit(s[k])
  }

  function DigitValue(c: char): (d: int)
    ensures IsDigit(c) ==> 0 <= d <= 9
  {
    c as int - '0' as int
  }

  function DigitChar(d: int): (c: char)
    requires 0 <= d <= 9
    ensures IsDigit(c) && DigitValue(c) == d
  {
    ['0', '1', '2', '3', '4', '5', '6', '7', '8', '9'][d]
  }

  /** The value of a string of decimal digits, most significant first. */
  function DigitsValue(s: seq<char>): (n: int)
    ensures AllDigits(s) ==> n >= 0
  {
    if |s| == 0 then 0 else DigitsValue(s[..|s| - 1]) * 10 + DigitValue(s[|s| - 1])
  }

  /** (int) of a string that is an optional '-' and digits. */
  function SignedValue(s: seq<char>): int {
    if |s| > 0 && s[0] == '-' then -DigitsValue(s[1..]) else DigitsValue(s)
  }

  /** The decimal text of a natural number, with no leading zero. */
  function NatText(n: nat): (t: seq<char>)
    ensures |t| >= 1 && AllDigits(t)
    ensures |t| > 1 ==> t[0] != '0'
    ensures DigitsValue(t) == n
    decreases n
  {
    if n < 10 then [DigitChar(n)]
    else
      var t := NatText(n / 10) + [DigitChar(n % 10)];
      assert t[..|t| - 1] == NatText(n / 10);
      t
  }

  /** PHP's text for an int: a '-' for a negative number, then the digits of its magnitude. */
  function IntText(i: int): (t: seq<char>)
    ensures |t| >= 1
    ensures t[0] == '-' <==> i < 0
    ensures SignedValue(t) == i
  {
    if i < 0 then ['-'] + NatText(-i) else NatText(i)
  }

  /** Short texts: one digit below 10, two below 100, three below 1000. */
  lemma NatTextLength(n: nat)
    ensures n < 10 ==> |NatText(n)| == 1
    ensures 10 <= n < 100 ==> |NatText(n)| == 2
    ensures 100 <= n < 1000 ==> |NatText(n)| == 3
  {
    if n >= 10 {
      NatTextLength(n / 10);
    }
  }

  /** A string of k digits is worth less than 10^k. */
  lemma {:induction false} DigitsValueBound(s: seq<char>)
    requires AllDigits(s)
    ensures DigitsValue(s) < Pow10(|s|)
  {
    if |s| > 0 {
      DigitsValueBound(s[..|s| - 1]);
    }
  }

  /** The value of a string of up to three digits, written out positionally. */
  lemma DigitsValueShort(s: seq<char>)
    ensures |s| == 1 ==> DigitsValue(s) == DigitValue(s[0])
    ensures |s| == 2 ==> DigitsValue(s) == 10 * DigitValue(s[0]) + DigitValue(s[1])
    ensures |s| == 3 ==> DigitsValue(s) == 100 * DigitValue(s[0]) + 10 * DigitValue(s[1]) + DigitValue(s[2])
  {
    if |s| >= 2 {
      assert s[..|s| - 1][..|s| - 2] == s[..|s| - 2];
      if |s| == 3 {
        assert s[..1][..0] == [];
      }
    }
  }
}

=== FILE: tokens.dfy ===
/**
 * The three regular expressions FromString applies (src/Angle.php:33-43),
 * written out as scanners over the string, each with the regex's own
 * description beside it and a proof that the scanner finds exactly the
 * match a leftmost, backtracking regex engine reports.
 *
 *   degrees  ^(-?(?:360|3[0-5]\d|[12]?\d{1,2}))°
 *   minutes  \b([0-5]?\d)'
 *   seconds  \b((?:[1-5]?\d)(?:\.\d)?)"$
 *
 * Strings are sequences of characters, with the degree sign one character.
 */
module Tokens {
  import opened Wrappers
  import opened Text

  const DEGREE_SIGN: char := '°'

  /** \b at position i: a word character on exactly one side of it. */
  predicate WordBoundary(s: seq<char>, i: int)
    requires 0 <= i <= |s|
  {
    (i > 0 && IsWordChar(s[i - 1])) != (i < |s| && IsWordChar(s[i]))
  }

  /** $ without the D modifier: the end of the subject, or just before a final newline. */
  predicate EndAnchor(s: seq<char>, k: int)
    requires 0 <= k <= |s|
  {
    k == |s| || (k == |s| - 1 && s[k] == '\n')
  }

  // Degrees

  /** The alternatives of the degrees group after its optional minus, as the regex lists them. */
  predicate DegreesDigits(t: seq<char>) {
    t == "360"
    || (|t| == 3 && t[0] == '3' && '0' <= t[1] <= '5' && IsDigit(t[2]))
    || (|t| == 3 && (t[0] == '1' || t[0] == '2') && IsDigit(t[1]) && IsDigit(t[2]))
    || (1 <= |t| <= 2 && AllDigits(t))
  }

  /** The anchored degrees regex matches `s` with group `g`. */
  predicate DegreesMatch(s: seq<char>, g: seq<char>) {
    |g| < |s| && g == s[..|g|] && s[|g|] == DEGREE_SIGN
    && ((|g| > 0 && g[0] == '-' && DegreesDigits(g[1..])) || DegreesDigits(g))
  }

  /** The length of the run of digits that starts at `i`. */
  function DigitRun(s: seq<char>, i: nat): (n: nat)
    requires i <= |s|
    ensures i + n <= |s| && AllDigits(s[i..i + n])
    ensures i + n == |s| || !IsDigit(s[i + n])
    decreases |s| - i
  {
    if i < |s| && IsDigit(s[i]) then
      var n := 1 + DigitRun(s, i + 1);
      assert s[i..i + n] == [s[i]] + s[i + 1..i + n];
      n
    else 0
  }

  /** Any run of digits ended by a non-digit is the run DigitRun measures. */
  lemma {:induction false} DigitRunExact(s: seq<char>, i: nat, j: nat)
    requires i <= j <= |s| && AllDigits(s[i..j])
    requires j == |s| || !IsDigit(s[j])
    ensures DigitRun(s, i) == j - i
    decreases j - i
  {
    if i < j {
      assert IsDigit(s[i..j][0]);
      assert s[i + 1..j] == s[i..j][1..];
      DigitRunExact(s, i + 1, j);
    }
  }

  /** One to three digits; three only without a leading zero and up to 360. */
  predicate ValidDegreeDigits(d: seq<char>) {
    1 <= |d| <= 3 && (|d| < 3 || (d[0] != '0' && DigitsValue(d) <= 360))
  }

  /** The value rule for degree digits is the regex's list of alternatives. */
  lemma DegreeDigitsAlternatives(d: seq<char>)
    requires AllDigits(d)
    ensures ValidDegreeDigits(d) <==> DegreesDigits(d)
  {
    DigitsValueShort(d);
  }

  /** preg_match with the degrees regex: the optional '-', the maximal digit run, then '°'. */
  function MatchDegrees(s: seq<char>): (r: Option<seq<char>>)
    ensures r.Some? ==> DegreesMatch(s, r.value)
    ensures forall g :: DegreesMatch(s, g) ==> r == Some(g)
  {
    var start := if |s| > 0 && s[0] == '-' then 1 else 0;
    var n := DigitRun(s, start);
    var d := s[start..start + n];
    DegreeDigitsAlternatives(d);
    if ValidDegreeDigits(d) && start + n < |s| && s[start + n] == DEGREE_SIGN then
      DegreesFound(s, start, n);
      Some(s[..start + n])
    else
      DegreesAbsent(s, start, n);
      None
  }

  /** What MatchDegrees returns is a match, and the only one. */
  lemma DegreesFound(s: seq<char>, start: nat, n: nat)
    requires start == (if |s| > 0 && s[0] == '-' then 1 else 0)
    requires n == DigitRun(s, start) && ValidDegreeDigits(s[start..start + n])
    requires start + n < |s| && s[start + n] == DEGREE_SIGN
    ensures DegreesMatch(s, s[..start + n])
    ensures forall g :: DegreesMatch(s, g) ==> g == s[..start + n]
  {
    var g := s[..start + n];
    DegreeDigitsAlternatives(s[start..start + n]);
    if start == 1 {
      assert g[1..] == s[1..1 + n];
    } else {
      assert g == s[0..n];
    }
    forall h | DegreesMatch(s, h)
      ensures h == g
    {
      DegreesMatchIsRun(s, h);
    }
  }

  /** When MatchDegrees finds nothing, the regex matches nowhere. */
  lemma DegreesAbsent(s: seq<char>, start: nat, n: nat)
    requires start == (if |s| > 0 && s[0] == '-' then 1 else 0)
    requires n == DigitRun(s, start)
    requires !(ValidDegreeDigits(s[start..start + n]) && start + n < |s| && s[start + n] == DEGREE_SIGN)
    ensures forall g :: !DegreesMatch(s, g)
  {
    DegreeDigitsAlternatives(s[start..start + n]);
    forall h | DegreesMatch(s, h)
      ensures false
    {
      DegreesMatchIsRun(s, h);
    }
  }

  /** A match's group is the optional minus followed by the whole run of digits. */
  lemma DegreesMatchIsRun(s: seq<char>, g: seq<char>)
    requires DegreesMatch(s, g)
    ensures var start := if |s| > 0 && s[0] == '-' then 1 else 0;
            |g| == start + DigitRun(s, start)
  {
    var start := if |s| > 0 && s[0] == '-' then 1 else 0;
    if |g| > 0 && g[0] == '-' {
      assert s[0] == '-';
      assert s[1..|g|] == g[1..];
      DigitRunExact(s, 1, |g|);
    } else {
      assert DegreesDigits(g);
      assert AllDigits(g) && |g| > 0;
      assert s[0] == g[0];
      assert start == 0;
      assert s[0..|g|] == g;
      DigitRunExact(s, 0, |g|);
    }
  }

  // Minutes

  /** The minutes group: one digit, or two digits of which the first is 0 to 5. */
  predicate MinutesDigits(t: seq<char>) {
    (|t| == 1 && IsDigit(t[0])) || (|t| == 2 && '0' <= t[0] <= '5' && IsDigit(t[1]))
  }

  /** The minutes regex matches starting at `i` with group `g`. */
  predicate MinutesMatchAt(s: seq<char>, i: nat, g: seq<char>) {
    i + |g| < |s| && WordBoundary(s, i) && s[i..i + |g|] == g && s[i + |g|] == '\''
    && MinutesDigits(g)
  }

  /** `g` is the group of the leftmost minutes match, the one preg_match captures. */
  ghost predicate LeftmostMinutes(s: seq<char>, g: seq<char>) {
    exists j: nat :: MinutesMatchAt(s, j, g) && forall k: nat, h :: k < j ==> !MinutesMatchAt(s, k, h)
  }

  /** The attempt at one start position: two digits are tried before one. */
  function MinutesAt(s: seq<char>, i: nat): (r: Option<seq<char>>)
    requires i <= |s|
    ensures r.Some? ==> MinutesMatchAt(s, i, r.value)
    ensures r.None? ==> forall g :: !MinutesMatchAt(s, i, g)
  {
    if i < |s| && (i == 0 || !IsWordChar(s[i - 1])) then
      if i + 2 < |s| && '0' <= s[i] <= '5' && IsDigit(s[i + 1]) && s[i + 2] == '\'' then
        Some(s[i..i + 2])
      else if i + 1 < |s| && IsDigit(s[i]) && s[i + 1] == '\'' then
        Some(s[i..i + 1])
      else
        None
    else
      None
  }

  /** Try every start from `i` on and report the first that matches, with its position. */
  function FindMinutes(s: seq<char>, i: nat): (r: Option<(nat, seq<char>)>)
    requires i <= |s|
    ensures r.Some? ==> i <= r.value.0 && MinutesMatchAt(s, r.value.0, r.value.1)
    ensures r.Some? ==> forall j: nat, g :: i <= j < r.value.0 ==> !MinutesMatchAt(s, j, g)
    ensures r.None? ==> forall j: nat, g :: i <= j ==> !MinutesMatchAt(s, j, g)
    decreases |s| - i
  {
    if i == |s| then None
    else
      match MinutesAt(s, i)
      case Some(g) => Some((i, g))
      case None => FindMinutes(s, i + 1)
  }

  /** preg_match with the minutes regex: the leftmost match, with its position. */
  function MatchMinutes(s: seq<char>): (r: Option<(nat, seq<char>)>)
    ensures r.Some? ==> MinutesMatchAt(s, r.value.0, r.value.1)
    ensures r.Some? ==> forall j: nat, g :: j < r.value.0 ==> !MinutesMatchAt(s, j, g)
    ensures r.None? ==> forall j: nat, g :: !MinutesMatchAt(s, j, g)
  {
    FindMinutes(s, 0)
  }

  // Seconds

  /** The seconds group: [1-5]?\d, then optionally a point and one digit. */
  predicate SecondsDigits(t: seq<char>) {
    (|t| == 1 && IsDigit(t[0]))
    || (|t| == 2 && '1' <= t[0] <= '5' && IsDigit(t[1]))
    || (|t| == 3 && IsDigit(t[0]) && t[1] == '.' && IsDigit(t[2]))
    || (|t| == 4 && '1' <= t[0] <= '5' && IsDigit(t[1]) && t[2] == '.' && IsDigit(t[3]))
  }

  /** The seconds regex matches starting at `i` with group `g`: the quote must end the subject. */
  predicate SecondsMatchAt(s: seq<char>, i: nat, g: seq<char>) {
    i + |g| < |s| && WordBoundary(s, i) && s[i..i + |g|] == g && s[i + |g|] == '"'
    && EndAnchor(s, i + |g| + 1) && SecondsDigits(g)
  }

  /** `g` is the group of the leftmost seconds match, the one preg_match captures. */
  ghost predicate LeftmostSeconds(s: seq<char>, g: seq<char>) {
    exists j: nat :: SecondsMatchAt(s, j, g) && forall k: nat, h :: k < j ==> !SecondsMatchAt(s, k, h)
  }

  /** The one position where a quote can be followed by $. */
  function ClosingQuote(s: seq<char>): (q: Option<nat>)
    ensures q.Some? ==> q.value < |s| && s[q.value] == '"' && EndAnchor(s, q.value + 1)
    ensures forall k: nat :: k < |s| && s[k] == '"' && EndAnchor(s, k + 1) ==> q == Some(k)
  {
    if |s| >= 1 && s[|s| - 1] == '"' then Some(|s| - 1)
    else if |s| >= 2 && s[|s| - 1] == '\n' && s[|s| - 2] == '"' then Some(|s| - 2)
    else None
  }

  /** The attempt at one start position, with the group ending at the closing quote. */
  function SecondsAt(s: seq<char>, i: nat, q: nat): (r: Option<seq<char>>)
    requires i <= q < |s| && s[q] == '"' && EndAnchor(s, q + 1)
    ensures r.Some? ==> SecondsMatchAt(s, i, r.value)
    ensures r.None? ==> forall g :: !SecondsMatchAt(s, i, g)
  {
    if (i == 0 || !IsWordChar(s[i - 1])) && SecondsDigits(s[i..q]) then
      Some(s[i..q])
    else
      SecondsAtMiss(s, i, q);
      None
  }

  /** A match at `i` would have to end at the closing quote, so a failed attempt rules `i` out. */
  lemma SecondsAtMiss(s: seq<char>, i: nat, q: nat)
    requires i <= q < |s| && s[q] == '"' && EndAnchor(s, q + 1)
    requires !((i == 0 || !IsWordChar(s[i - 1])) && SecondsDigits(s[i..q]))
    ensures forall g :: !SecondsMatchAt(s, i, g)
  {
    forall g | SecondsMatchAt(s, i, g)
      ensures false
    {
    }
  }

  /** Try every start from `i` up to the closing quote and report the first match. */
  function FindSeconds(s: seq<char>, i: nat, q: nat): (r: Option<(nat, seq<char>)>)
    requires i <= q < |s| && s[q] == '"' && EndAnchor(s, q + 1)
    ensures r.Some? ==> i <= r.value.0 && SecondsMatchAt(s, r.value.0, r.value.1)
    ensures r.Some? ==> forall j: nat, g :: i <= j < r.value.0 ==> !SecondsMatchAt(s, j, g)
    ensures r.None? ==> forall j: nat, g :: i <= j ==> !SecondsMatchAt(s, j, g)
    decreases q - i
  {
    if i == q then
      SecondsNotAfterQuote(s, q);
      None
    else
      match SecondsAt(s, i, q)
      case Some(g) => Some((i, g))
      case None => FindSeconds(s, i + 1, q)
  }

  /** No match starts at or after the closing quote: the group is not empty. */
  lemma SecondsNotAfterQuote(s: seq<char>, q: nat)
    requires q < |s| && s[q] == '"' && EndAnchor(s, q + 1)
    ensures forall j: nat, g :: q <= j ==> !SecondsMatchAt(s, j, g)
  {
    forall j: nat, g | q <= j && SecondsMatchAt(s, j, g)
      ensures false
    {
    }
  }

  /** No match starts more than four characters before the closing quote: the group is too short. */
  lemma SecondsNotFarBefore(s: seq<char>, q: nat, start: nat)
    requires q < |s| && s[q] == '"' && EndAnchor(s, q + 1)
    requires start == (if q >= 4 then q - 4 else 0)
    ensures forall j: nat, g :: j < start ==> !SecondsMatchAt(s, j, g)
  {
    forall j: nat, g | j < start && SecondsMatchAt(s, j, g)
      ensures false
    {
    }
  }

  /** preg_match with the seconds regex: the leftmost match, with its position. */
  function MatchSeconds(s: seq<char>): (r: Option<(nat, seq<char>)>)
    ensures r.Some? ==> SecondsMatchAt(s, r.value.0, r.value.1)
    ensures r.Some? ==> forall j: nat, g :: j < r.value.0 ==> !SecondsMatchAt(s, j, g)
    ensures r.None? ==> forall j: nat, g :: !SecondsMatchAt(s, j, g)
  {
    match ClosingQuote(s)
    case None =>
      NoClosingQuote(s);
      None
    case Some(q) =>
      var start := if q >= 4 then q - 4 else 0;
      SecondsNotFarBefore(s, q, start);
      FindSeconds(s, start, q)
  }

  /** A seconds match with none before it is the one preg_match reports. */
  lemma SecondsFirstMatch(s: seq<char>, q: nat, t: seq<char>)
    requires SecondsMatchAt(s, q, t)
    requires forall j: nat, g :: j < q ==> !SecondsMatchAt(s, j, g)
    ensures MatchSeconds(s) == Some((q, t))
  {
    var r := MatchSeconds(s);
    assert r.Some?;
    assert r.value.0 == q;
    SecondsGroupUnique(s, q, r.value.1, t);
  }

  /** At one position the seconds regex can capture only one group: it must end at the closing quote. */
  lemma SecondsGroupUnique(s: seq<char>, i: nat, g1: seq<char>, g2: seq<char>)
    requires SecondsMatchAt(s, i, g1) && SecondsMatchAt(s, i, g2)
    ensures g1 == g2
  {
  }

  /** Without a quote before $ the seconds regex matches nowhere. */
  lemma NoClosingQuote(s: seq<char>)
    requires ClosingQuote(s).None?
    ensures forall j: nat, g :: !SecondsMatchAt(s, j, g)
  {
    forall j: nat, g | SecondsMatchAt(s, j, g)
      ensures false
    {
    }
  }

  /** The decimal value of a seconds group: whole part, and tenths after a point. */
  function SecondsValue(t: seq<char>): (v: real)
    requires SecondsDigits(t)
    ensures 0.0 <= v < 60.0
  {
    var whole := if |t| >= 3 && t[|t| - 2] == '.' then t[..|t| - 2] else t;
    DigitsValueShort(whole);
    if |t| >= 3 && t[|t| - 2] == '.' then
      DigitsValue(whole) as real + DigitValue(t[|t| - 1]) as real / 10.0
    else
      DigitsValue(whole) as real
  }

  /** 361 is not one of the degree alternatives. */
  lemma RejectedDegrees(s: seq<char>)
    requires s == "361° 0' 0\""
    ensures MatchDegrees(s).None?
  {
    var d := s[0..3];
    assert d == "361";
    DigitRunExact(s, 0, 3);
    DigitsValueShort(d);
    assert !ValidDegreeDigits(d);
  }

  /** 60 is not a minutes group, and neither is its last digit alone, which has no boundary before it. */
  lemma RejectedMinutes()
    ensures MatchMinutes("0° 60' 0\"").None?
  {
    var s := "0° 60' 0\"";
  }

  /** 60 is not a seconds group, and its last digit alone has no boundary before it. */
  lemma RejectedSeconds()
    ensures MatchSeconds("0° 0' 60\"").None?
  {
    var s := "0° 0' 60\"";
    assert ClosingQuote(s) == Some(8);
  }
}

=== FILE: wrappers.dfy ===
/** Failure-carrying values shared by the builders and the comparison family. */
module Wrappers {

  /** A value that may be absent: PHP's `null` in a fetched tuple slot. */
  datatype Option<+T> = None | Some(value: T)

  /** Either a computed value or the exception a builder or comparison throws. */
  datatype Result<+T, +E> = Ok(value: T) | Err(error: E)
}

/** The exceptions the modelled core throws; message texts are not modelled. */
module Exceptions {

  datatype Error =
    | Overflow         // AngleOverflowException
    | NoMatch          // NoMatchException
    | InvalidArgument  // InvalidArgumentException
}
